=== FILE: README.md ===
# Serverless Grafana request handler, modelled in Dafny

This project models `lambda_run.py`, the function-as-a-service handler that runs a
Grafana server behind an API gateway. Each invocation strips the `/grafana` mount
prefix from the request path. Static media (`/public/…`) goes straight to the local
Grafana process. Every other request goes through the exclusive section:

- stop the local server;
- take a lease lock held as a record in a key-value table;
- download the data files listed in the file index;
- start the server with a freshly rendered configuration;
- forward the request and translate the response back into the gateway's format;
- stop the server;
- upload changed files and publish the whole cache as the new index;
- release the lock.

The model is purely functional. The environment's module-level state is threaded
through explicitly: the process handle and the two sync caches (path → version,
path → mtime). So is the index item in the files table. Everything the outside
world answers is a parameter:

- the clock and the remaining time at each lock attempt;
- the store replies, as a sequence (`Reply`);
- the object store's put replies and downloaded mtimes;
- whether a stop returns within its five seconds;
- the local server's answer to the forwarded request;
- the library calls (base64, the encoding lookup on the response headers, text decoding).

A retry loop that runs out of replies stands for an invocation whose time ran out
while it was still sleeping and retrying. Its `finally` blocks never run.

Modules, one per file:

| file | module | models |
|---|---|---|
| common.dfy | `Common` | results, store replies, the first-non-throttled-reply helper |
| lease_lock.dfy | `LeaseLock` | `dynamodb_lock_acquire`, `dynamodb_lock_release` |
| index_store.dfy | `IndexStore` | `dynamodb_get_files`, `dynamodb_put_files` (the index as a map) |
| file_sync.dfy | `FileSync` | `sync_data`: the download and upload passes and the warm caches |
| supervisor.dfy | `Supervisor` | `start_grafana`, `stop_grafana`, `GRAFANA_CONFIG_TEMPLATE` |
| translator.dfy | `Translator` | `proxy_request`: request building, the header map, body encoding |
| handler.dfy | `Handler` | `lambda_handler`, `PATH_PREFIX_RE`, the `dynamodb_lock` context manager |

## Model

| member | source | states |
|---|---|---|
| Common.Settled | lambda_run.py:170-192 | The attempt that decides a throttle-retrying store call is the first non-throttled reply, and every earlier reply was throttled. None means every reply was throttled. |
| LeaseLock.Ceil | lambda_run.py:80-83 | `math.ceil`: the result is the least integer not below its argument. |
| LeaseLock.LeaseCoversRemainingTime | lambda_run.py:80-84 | The written expiry is no earlier than the clock plus the remaining time. It overshoots by less than two seconds. |
| LeaseLock.Acquire | lambda_run.py:72-123 | The acquire loop wins at the first attempt whose put is delivered with 200 while the record is absent or expired. Every earlier attempt waited on contention or throttling. Any other client error or non-200 raises. The returned expiry is the winning attempt's. |
| LeaseLock.AcquireWritesLease | lambda_run.py:87-104 | On the winning attempt the condition held and the store now holds the new expiry. |
| LeaseLock.WaitDelays | lambda_run.py:105-114 | A contended or throttled attempt only delays the loop by one attempt. |
| LeaseLock.LiveLeaseBlocks | lambda_run.py:98 | If each of the first k+1 attempts is delivered but finds a record whose expiry is not before its `now`, none of them acquires. |
| LeaseLock.ExpiredLeaseIsAcquirable | lambda_run.py:98 | A 200 reply on a stale record acquires at once, with the new expiry. |
| LeaseLock.AcquireAfterWaits | lambda_run.py:78-123 | After k waiting attempts, a winning attempt acquires on attempt k+1. |
| LeaseLock.ReleaseFrom | lambda_run.py:132-161 | The release loop stops at the first 200 (released) or the first error it does not tolerate. Before that it saw only throttles and non-200 replies, at most as many non-200 replies as its budget. A non-200 reply raises only once the budget is spent. |
| LeaseLock.RefusalsSpendBudget | lambda_run.py:153-159 | Each non-200 reply spends one retry: with budget b, the (b+1)-th consecutive non-200 reply raises. |
| LeaseLock.SixthRefusalRaises | lambda_run.py:132-159 | With five retries, six non-200 replies in a row raise on the sixth. |
| LeaseLock.ThrottlingIsFree | lambda_run.py:146-161 | Throttling never spends the budget: after any number of throttles the first 200 releases. |
| LeaseLock.ReleasedLockIsFree | lambda_run.py:136-144 | The delete names only the lock's id, so after a completed release the next put answered 200 wins at once, whatever the clock and whoever held the record. |
| LeaseLock.UnreleasedLeaseBlocks | lambda_run.py:98 | A release that did not complete leaves a live lease in place, and the next delivered put waits. |
| IndexStore.GetFiles | lambda_run.py:164-199 | The consistent read succeeds exactly when the deciding reply is 200. It returns the stored index, or the empty one when no item exists, and raises on the deciding reply otherwise. |
| IndexStore.PutFiles | lambda_run.py:202-235 | The unconditional write succeeds exactly when the deciding reply is 200. Then the item holds exactly the written index; otherwise the item is unchanged. |
| IndexStore.WriteThenRead | lambda_run.py:194-235 | A read after a successful write returns exactly what was written. |
| FileSync.Record | lambda_run.py:369-370 | Recording a path sets its version and mtime, keeps both cache maps on the same paths, and changes no other path. |
| FileSync.DownloadEach | lambda_run.py:340-370 | Paths outside the index are untouched. It transfers exactly the listed paths whose cached version differs, and raises exactly when such a path cannot be fetched. On success every listed path holds its indexed version; its mtime is kept when current and comes from the fetch otherwise. |
| FileSync.UploadEach | lambda_run.py:374-400 | Non-walked paths are untouched. The loop raises exactly when a changed file's put is not 200. On success it uploaded exactly the files whose mtime differs from the cache, in walk order. Each walked file then holds its current mtime, with the new version id if uploaded and its old version otherwise. |
| FileSync.ChangedDependsOnWalkOnly | lambda_run.py:383-385 | Two caches that agree on which walked files are unchanged give the same list of files to upload. |
| FileSync.ChangedIffModified | lambda_run.py:383-387 | A walked file is among those uploaded exactly when its mtime differs from the cached one, so a file the cache has never seen always uploads. |
| FileSync.ToIndex | lambda_run.py:402-404 | The published index lists exactly the cached paths, including paths no longer on disk. |
| FileSync.CacheRoundTrip | lambda_run.py:340-342 | Reading the published index back into caches gives the caches. |
| FileSync.IndexRoundTrip | lambda_run.py:402-404 | Publishing the caches read from an index gives the index. |
| FileSync.DownloadPass | lambda_run.py:334-370 | A failed index read raises with the caches unchanged. On success every indexed path is current, exactly the stale ones were transferred, and unindexed paths are untouched. |
| FileSync.UploadPass | lambda_run.py:372-406 | On success the index becomes exactly the whole cache, whose paths are the old cached paths plus the walked ones. Every walked file is synced: a changed one carries the version id its put returned, an unchanged one keeps its cached version, and each has its walked mtime. Every path the walk did not find keeps its cached entry. On failure the index item is unchanged. |
| FileSync.UploadPublishesVersions | lambda_run.py:396-406 | When every changed file's put and the index write are answered 200, the published entry of each changed walked file holds the version id its put returned, an unchanged file keeps its cached version, and each has its walked mtime. A cached path the walk did not find keeps its entry. |
| FileSync.SyncData | lambda_run.py:332-406 | With neither flag nothing happens. With `download` alone it is the download pass, and the index item is unchanged. With `upload` alone it is the upload pass. The caches stay consistent in every case. |
| FileSync.QuietWhenNothingChanged | lambda_run.py:383-386 | When every walked mtime matches the cache, the per-file upload loop transfers nothing and leaves the caches unchanged. The pass still rewrites the index item. |
| FileSync.SecondUploadIsQuiet | lambda_run.py:383-400 | Right after a successful upload pass, a second pass over the same walk uploads nothing. |
| FileSync.OwnIndexDownloadsNothing | lambda_run.py:347-350 | Downloading the index the environment itself published fetches nothing and changes nothing. |
| FileSync.ColdDownloadFetchesAll | lambda_run.py:347-370 | From a cold cache the download fetches every indexed path. It succeeds exactly when all can be fetched, and records each path's mtime after the download. |
| FileSync.PublishedIndexDownloadsNothing | lambda_run.py:336-350 | The full download pass over the environment's own published index reads it back and transfers nothing. |
| Supervisor.ConfigSplitsIntoLines | lambda_run.py:32-41 | The rendered configuration, split on newlines, gives back its nine lines, the last one empty (the template ends in a newline). |
| Supervisor.ConfigNamesHostAndStage | lambda_run.py:32-41 | The configuration names the request's `Host` as the domain and roots the URL at `/{stage}/grafana`, with the data and plugins directories under /tmp/grafana. |
| Supervisor.Start | lambda_run.py:288-314 | A handle that looks alive is kept and nothing is written. Otherwise the configuration file is rewritten. A missing `Host` header raises and leaves it empty, with the handle unchanged. A present one fills the file with the rendered configuration and launches. |
| Supervisor.Stop | lambda_run.py:317-329 | No handle, or a process that has already exited, means the handle is cleared without error. A running process whose wait returns in time is cleared too. A wait that times out raises and keeps the handle. The stop raises exactly when it keeps a handle. |
| Supervisor.OnlyRunningStopTimesOut | lambda_run.py:325-329 | The stop raises exactly when the process is still running and does not exit in time; an exited process is always cleared. |
| Supervisor.MissingHostTruncatesConfig | lambda_run.py:300-302 | The configuration file is opened for writing before the template is filled in, so a missing `Host` header leaves it empty, raises and keeps the handle. |
| Supervisor.StartIsIdempotent | lambda_run.py:296-298 | A start right after a successful start changes nothing. |
| Supervisor.StopThenStartRenders | lambda_run.py:300-306 | After a successful stop, the next start always writes the configuration for the current request. |
| Supervisor.CleanExitLooksRunning | lambda_run.py:296-314 | A process that exited with code 0 is taken for a running one and not restarted. After any other exit code the configuration file is rewritten, and with a `Host` header the server is relaunched. |
| Translator.BuildRequest | lambda_run.py:240-245 | The URL is the local origin followed by the path. The method and headers pass through. A body is sent exactly when the event is base64-flagged, and is its decoding; undecodable base64 raises. |
| Translator.Variants | lambda_run.py:262-265 | There are 2^n case variants of a name of length n, and each equals the name up to case. |
| Translator.VariantsHalves | lambda_run.py:262-265 | The variants run through the tail's variants behind the lower-case first letter, then behind the upper-case one. |
| Translator.FirstVariantIsLower | lambda_run.py:262-265 | The first variant is the all-lower-case name. |
| Translator.SecondVariant | lambda_run.py:262-265 | The second variant upper-cases only the last character. |
| Translator.EndingInLetterSeparatesTwo | lambda_run.py:262-265 | For a name ending in a letter, the first two variants differ. |
| Translator.LettersGiveDistinctVariants | lambda_run.py:262-265 | For an all-letter name, all variants are distinct. |
| Translator.Kept | lambda_run.py:257-258 | `Content-Length` and `Transfer-Encoding` lines are dropped in any spelling, and every other line is kept. |
| Translator.KeptValues | lambda_run.py:257-266 | For any other header, the kept lines give exactly the server's values, all of them and in the server's order. |
| Translator.Names | lambda_run.py:259 | The header names iterate once each, lower-cased, and cover exactly the names of the lines. |
| Translator.Assign | lambda_run.py:266-268 | Zipping keys with values writes exactly the first min(#keys, #values) keys. Other keys keep their values, each written key holds one of the values, and with distinct keys the i-th key holds the i-th value. |
| Translator.Locality | lambda_run.py:259-268 | Keys written for different header names never collide, so each key's final value comes from its own name's writes. |
| Translator.HeaderKeysAreSound | lambda_run.py:256-268 | Every key of the response header map is a kept, non-hop-by-hop name up to case, and holds one of that name's values. |
| Translator.HeaderValuesAllLand | lambda_run.py:262-268 | The first min(2^n, #values) case variants of each name are keys. Which value each holds is stated only by HeaderValuesInOrder, for distinct variants. |
| Translator.HeaderValuesInOrder | lambda_run.py:262-268 | With distinct variants, the j-th value sits under the j-th case variant. |
| Translator.RepeatedVariantLosesValue | lambda_run.py:262-268 | A name with a caseless character repeats its variants, so a later value overwrites an earlier one: three `a-b` lines give only `a-b: z` and `a-B: y`, and `x` is lost. |
| Translator.TwoValuesSurvive | lambda_run.py:257-268 | If the server sends exactly two values for a non-hop-by-hop, lower-case name ending in a letter, both survive. The first is under the name; the second is under the name with its last letter upper-cased. |
| Translator.TwoCookiesSurvive | lambda_run.py:257-268 | Two `Set-Cookie` lines from the server survive as `set-cookie` and `set-cookiE`. |
| Translator.Translate | lambda_run.py:270-285 | The status passes through. When the encoding lookup on the kept headers finds an encoding, the body is decoded text in that encoding, and undecodable text raises. Otherwise the body is base64 of the raw bytes and flagged binary. |
| Translator.BinaryBodyRoundTrips | lambda_run.py:270-285 | With no encoding found, the body is flagged base64, and when base64 decoding undoes the encoding the gateway recovers exactly the server's bytes. |
| Translator.FramingIsInvisible | lambda_run.py:257-285 | Two replies that agree on status, bytes and every header line other than Content-Length and Transfer-Encoding translate to the same response. |
| Translator.Proxy | lambda_run.py:238-285 | Bad base64 raises. A server that never answers raises. Otherwise the server's answer is translated. |
| Handler.StripPrefix | lambda_run.py:25 | Exactly one leading `/grafana` is removed when present; other paths are unchanged. |
| Handler.StripUndoesMount | lambda_run.py:416 | Stripping undoes mounting, for every path. |
| Handler.StripOnce | lambda_run.py:25 | Only one mount prefix is removed: `/grafana/grafana/x` becomes `/grafana/x`. |
| Handler.StripIgnoresBoundary | lambda_run.py:25 | The pattern has no word boundary: `/grafanax` becomes `x`. |
| Handler.RoutingExamples | lambda_run.py:416-418 | `/grafana/public/img/x.png` routes to static `/public/img/x.png`. `/grafana/api/search` and a bare `/public` are not static. |
| Handler.Locked | lambda_run.py:434-438 | The locked steps run in order and stop at the first that raises. Before the upload, the index is unchanged. Success returns the server's response, leaves the server stopped and publishes the whole cache. |
| Handler.Unlock | lambda_run.py:58-69 | The release always follows the section unless the deadline cut it off. A release error replaces the section's outcome; a release that runs out of time ends in the deadline. |
| Handler.HeldTraceShape | lambda_run.py:65-69 | A lock-holding trace starts stop, acquire, download. It touches data only after the acquire, and releases at its end and nowhere else. |
| Handler.Hold | lambda_run.py:433-438 | Once the lock is held, the release happens exactly when the section was not cut off. It is then the last effect, right after the last locked step attempted. Success performs all eight effects in order. |
| Handler.Bypass | lambda_run.py:418-424 | The static path starts the server if needed and forwards. It never touches the index or the caches, and forwards only if the start succeeded. |
| Handler.Exclusive | lambda_run.py:431-438 | The exclusive path always begins by stopping the server, whatever happens next, and the caches stay consistent. |
| Handler.Handle | lambda_run.py:409-440 | Whatever the outcome, the sync caches stay consistent (same paths in both). |
| Handler.NotBuiltRaisesFirst | lambda_run.py:413-414 | Without the installed server the handler raises before any effect. |
| Handler.StaticBypassesLock | lambda_run.py:418-424 | Static media never acquires, releases, downloads or uploads, leaves the index and caches alone, and forwards the stripped path. |
| Handler.StuckServerBlocksLock | lambda_run.py:431 | A running server whose stop times out makes the handler raise before the lock is requested. |
| Handler.LockBracketsSync | lambda_run.py:431-438 | Downloads, uploads and the release happen only when the acquire succeeded, and only after it in the trace. Once the lock is held, the release is the last effect unless the deadline cut the invocation off. |
| Handler.ExclusiveSuccess | lambda_run.py:426-440 | A successful exclusive invocation performs stop, acquire, download, start, forward, stop, upload, release, in order. It returns the server's response, leaves the server stopped and publishes the whole cache. |
| Handler.ExclusivePublishesWalk | lambda_run.py:426-438 | A successful exclusive invocation publishes every file the upload walk found, with the mtime the walk found. |
| Handler.ReleaseErrorWins | lambda_run.py:66-69 | An error from the release replaces the section's response or error. |
| Handler.FailureGoesStraightToRelease | lambda_run.py:66-69 | Once the lock is held, a locked step that raises is followed by the release and nothing else: the trace is the locked steps up to that one, then the release. |
| Handler.NextDownloadIsQuiet | lambda_run.py:434-438 | After a successful exclusive invocation, the next download in the same warm environment transfers nothing, provided no other invocation has written the index since. |

## Left out

- Logging (`print`), the `created_dirs` bookkeeping and directory creation have no effect on the modelled state.
- Sleeps are not modelled; a retry is simply the next reply in the sequence.
- JSON and base64 internals are not modelled: the index item is the map it encodes, and base64 and text decoding are library parameters.
- The server binaries, process launch, signals and the file system are outside the model: `Proc` records what `poll()` reports, and walked files and their mtimes are inputs.
- The HTTP client's connection retries (`retry_settings`) are folded into the server parameter. `None` stands for a server that never accepted the connection.
- The response from the local server does not depend on the modelled process handle.
- Case conversion is ASCII only; Python's full Unicode `lower()`/`upper()` is not modelled.
- LeaseLock.Ceil: works on an exact real clock, not on the floating-point value `time()` returns.
- The Lambda deadline appears only inside the retry loops, as running out of replies. The model has no time budget for the other steps.
- The lease written by the lock has no safety margin beyond the invocation's remaining time (lambda_run.py:80-84). The earlier skeleton added ten seconds (`seconds_remaining + 10`, lambda/lambda.py:15-16); the model follows lambda_run.py, so a holder cut off by its deadline keeps the lock only until its own time would have run out.
- Handler.Handle: its own contract states only that the caches stay consistent. The routing, bracketing and success facts about it are the separate lemmas listed above.
- The reply to an uploaded file always carries a version id. An unversioned bucket, where `response['VersionId']` (lambda_run.py:399) would raise `KeyError`, is not modelled.
- Translator.HeaderValuesAllLand: promises keys, not values. The case variants of a name with a digit, dash or other caseless character repeat, and the zip then writes a later value over an earlier one, as the source's loop does. Only the distinct-variant case is promised value by value.
- IndexStore.PutFiles: a put answered with a non-200 status is taken to leave the item unchanged; whether such a write actually took effect is not modelled. The same holds for a lock delete that is refused or never completes (`LeaseLock.AfterRelease`).
- Concurrency between invocations is not modelled beyond the lock's own lemmas: each invocation sees the other writers only through the lock record presented at each attempt.
- lambda_build.py (build and deploy plumbing) and the `lambda/` directory (an earlier skeleton whose data.py and proxy.py are print stubs) are not part of this model.

=== FILE: common.dfy ===
/** Shared vocabulary of the model: optional values, the exceptions the handler can
    raise, the shape of a reply from a remote store, and the throttling loop that
    every store call in the handler runs. */
module Common {

  datatype Option<+T> = None | Some(value: T)

  /** Every way an invocation can end without a response.  Each constructor stands
      for one exception the handler lets propagate. */
  datatype Failure =
    | ClientError(code: string)       // a store error re-raised with its code
    | BadStatus(status: int)          // `Exception('ERROR: ...')` on a non-200 reply
    | DownloadFailed(path: string)    // the object store could not serve a version
    | MissingHeader(name: string)     // `KeyError` on the event's headers
    | BadBase64                       // the request body is not valid base64
    | BadText(encoding: string)       // the response body does not decode as declared
    | Unreachable                     // the local server never answered
    | StopTimeout                     // the server did not exit within the wait
    | NotBuilt                        // the server's home directory is missing
    | Deadline                        // the platform ended the invocation mid-loop

  datatype Result<+T> = Ok(value: T) | Err(failure: Failure) {
    predicate IsFailure() { Err? }
    function PropagateFailure<U>(): Result<U>
      requires Err?
    {
      Err(failure)
    }
    function Extract(): T
      requires Ok?
    {
      value
    }
  }

  /** What a store call returns to its client: either a client error carrying the
      service's error code, or a reply with an HTTP status and a payload. */
  datatype Reply<+T> = Rejected(code: string) | Delivered(status: int, payload: T)

  const ThrottleCode: string := "ProvisionedThroughputExceededException"
  const ConditionFailedCode: string := "ConditionalCheckFailedException"

  /** `str.startswith`. */
  predicate StartsWith(s: string, prefix: string) {
    |prefix| <= |s| && s[..|prefix|] == prefix
  }

  predicate IsThrottle<T>(r: Reply<T>) {
    r.Rejected? && r.code == ThrottleCode
  }

  predicate IsOk<T>(r: Reply<T>) {
    r.Delivered? && r.status == 200
  }

  /** The error a store call raises for a reply that is neither throttling nor 200. */
  function Raised<T>(r: Reply<T>): Failure {
    match r
    case Rejected(code) => ClientError(code)
    case Delivered(status, _) => BadStatus(status)
  }

  /** Index of the first reply that is not throttling: the attempt that decides a
      call which sleeps and retries on throttling.  None when every reply the
      invocation had time for was throttling. */
  function Settled<T>(replies: seq<Reply<T>>): (k: Option<nat>)
    ensures k.Some? ==> k.value < |replies| && !IsThrottle(replies[k.value])
    ensures k.Some? ==> forall i :: 0 <= i < k.value ==> IsThrottle(replies[i])
    ensures k.None? ==> forall i :: 0 <= i < |replies| ==> IsThrottle(replies[i])
  {
    if replies == [] then None
    else if !IsThrottle(replies[0]) then Some(0)
    else
      match Settled(replies[1..])
      case None => None
      case Some(j) => Some(j + 1)
  }
}

=== FILE: file_sync.dfy ===
/** The synchroniser between Grafana's local data and plugin directories and the
    object store.  A warm environment keeps a cache of the version and mtime it
    last saw for each relative path; the download pass brings the local copy up
    to the remote index, the upload pass pushes changed files and republishes the
    whole cache as the index. */
module FileSync {
  import opened Common
  import opened IndexStore

  /** The two cache maps, path to version and path to mtime in nanoseconds. */
  datatype Cache = Cache(versions: map<Path, Version>, times: map<Path, int>) {
    /** Both maps always cover the same paths; publishing the index relies on it. */
    predicate Valid() {
      versions.Keys == times.Keys
    }
  }

  /** The cache of a cold environment. */
  const Cold: Cache := Cache(map[], map[])

  /** `_versions.get(path) == version`. */
  predicate Current(c: Cache, p: Path, v: Version) {
    p in c.versions && c.versions[p] == v
  }

  /** Two caches agree on one path. */
  predicate SameAt(a: Cache, b: Cache, p: Path) {
    && (p in a.versions <==> p in b.versions)
    && (p in a.times <==> p in b.times)
    && (p in a.versions && p in b.versions ==> a.versions[p] == b.versions[p])
    && (p in a.times && p in b.times ==> a.times[p] == b.times[p])
  }

  /** The cache with one path's entry replaced. */
  function Record(c: Cache, p: Path, v: Version, t: int): (c': Cache)
    ensures c.Valid() ==> c'.Valid()
    ensures Current(c', p, v) && p in c'.times && c'.times[p] == t
    ensures forall q :: q != p ==> SameAt(c', c, q)
  {
    Cache(c.versions[p := v], c.times[p := t])
  }

  /** The result of a pass: the cache it leaves behind (kept even when the pass
      raises, since the cache outlives the invocation), the paths it transferred
      in order, and the error it raised, if any. */
  datatype Pass = Pass(cache: Cache, transfers: seq<Path>, error: Option<Failure>)

  /** What the download loop keeps to whether or not it raises, for result `r`
      from cache `c` over `order`: paths outside `order` are untouched, it
      transfers only listed paths that were not current and could be fetched, and
      every entry it changed holds the indexed version and the fetched mtime. */
  ghost predicate DownloadSound(c: Cache, index: Index, order: seq<Path>, fetched: map<Path, int>, r: Pass)
    requires forall i :: 0 <= i < |order| ==> order[i] in index
  {
    && r.cache.Valid()
    && (forall p :: p !in order ==> SameAt(r.cache, c, p))
    && (forall p :: p in r.transfers ==> p in order && !Current(c, p, index[p].version) && p in fetched)
    && (forall p :: p in r.cache.versions && !SameAt(r.cache, c, p) ==>
          && p in order && p in fetched
          && Current(r.cache, p, index[p].version)
          && r.cache.times[p] == fetched[p])
  }

  /** When the download loop succeeds: it raises exactly when some listed path is
      neither current nor fetchable; otherwise it transferred exactly the paths
      that were not current, and every listed path is now current, keeping its
      mtime if it was current and taking the fetched one if not. */
  ghost predicate DownloadComplete(c: Cache, index: Index, order: seq<Path>, fetched: map<Path, int>, r: Pass)
    requires c.Valid() && r.cache.Valid()
    requires forall i :: 0 <= i < |order| ==> order[i] in index
  {
    && (r.error.None? <==> forall p :: p in order ==> Current(c, p, index[p].version) || p in fetched)
    && (r.error.None? ==> forall p :: p in order ==>
          && (p in r.transfers <==> !Current(c, p, index[p].version))
          && Current(r.cache, p, index[p].version)
          && (Current(c, p, index[p].version) ==> r.cache.times[p] == c.times[p])
          && (!Current(c, p, index[p].version) ==> p in fetched && r.cache.times[p] == fetched[p]))
  }

  /** The download loop over the index's paths in the order the index lists them.
      `fetched` holds the local mtime after downloading each path the object store
      can serve at its indexed version; fetching any other path raises. */
  function DownloadEach(c: Cache, index: Index, order: seq<Path>, fetched: map<Path, int>): (r: Pass)
    requires c.Valid()
    requires forall i :: 0 <= i < |order| ==> order[i] in index
    ensures r.cache.Valid()
    ensures DownloadSound(c, index, order, fetched, r)
    ensures DownloadComplete(c, index, order, fetched, r)
    decreases |order|
  {
    if order == [] then Pass(c, [], None)
    else
      var p := order[0];
      var v := index[p].version;
      if Current(c, p, v) then
        var r := DownloadEach(c, index, order[1..], fetched);
        DownloadSkipSound(c, index, order, fetched, r);
        DownloadSkipComplete(c, index, order, fetched, r);
        r
      else if p !in fetched then
        Pass(c, [], Some(DownloadFailed(p)))
      else
        var c' := Record(c, p, v, fetched[p]);
        var r := DownloadEach(c', index, order[1..], fetched);
        DownloadFetchSound(c, c', index, order, fetched, r);
        DownloadFetchComplete(c, c', index, order, fetched, r);
        Pass(r.cache, [p] + r.transfers, r.error)
  }

  /** A path already current is skipped: what the loop does over the rest is
      what it does over the whole list. */
  lemma DownloadSkipSound(c: Cache, index: Index, order: seq<Path>, fetched: map<Path, int>, r: Pass)
    requires forall i :: 0 <= i < |order| ==> order[i] in index
    requires order != [] && Current(c, order[0], index[order[0]].version)
    requires DownloadSound(c, index, order[1..], fetched, r)
    ensures DownloadSound(c, index, order, fetched, r)
  {
    assert forall q :: q in order[1..] ==> q in order;
  }

  lemma DownloadSkipComplete(c: Cache, index: Index, order: seq<Path>, fetched: map<Path, int>, r: Pass)
    requires c.Valid() && r.cache.Valid()
    requires forall i :: 0 <= i < |order| ==> order[i] in index
    requires order != [] && Current(c, order[0], index[order[0]].version)
    requires DownloadSound(c, index, order[1..], fetched, r)
    requires DownloadComplete(c, index, order[1..], fetched, r)
    ensures DownloadComplete(c, index, order, fetched, r)
  {
    var p := order[0];
    assert forall q :: q in order <==> q == p || q in order[1..];
    assert p !in order[1..] ==> SameAt(r.cache, c, p);
  }

  /** A path fetched first and recorded in `c'`: the loop over the rest, started
      from `c'`, completes the loop over the whole list. */
  lemma DownloadFetchSound(c: Cache, c': Cache, index: Index, order: seq<Path>, fetched: map<Path, int>, r: Pass)
    requires forall i :: 0 <= i < |order| ==> order[i] in index
    requires order != [] && !Current(c, order[0], index[order[0]].version) && order[0] in fetched
    requires c' == Record(c, order[0], index[order[0]].version, fetched[order[0]])
    requires DownloadSound(c', index, order[1..], fetched, r)
    ensures DownloadSound(c, index, order, fetched, Pass(r.cache, [order[0]] + r.transfers, r.error))
  {
    assert forall q :: q in order[1..] ==> q in order;
  }

  lemma DownloadFetchComplete(c: Cache, c': Cache, index: Index, order: seq<Path>, fetched: map<Path, int>, r: Pass)
    requires c.Valid() && r.cache.Valid()
    requires forall i :: 0 <= i < |order| ==> order[i] in index
    requires order != [] && !Current(c, order[0], index[order[0]].version) && order[0] in fetched
    requires c' == Record(c, order[0], index[order[0]].version, fetched[order[0]])
    requires DownloadSound(c', index, order[1..], fetched, r)
    requires DownloadComplete(c', index, order[1..], fetched, r)
    ensures DownloadComplete(c, index, order, fetched, Pass(r.cache, [order[0]] + r.transfers, r.error))
  {
    var p := order[0];
    assert forall q :: q in order <==> q == p || q in order[1..];
    forall q | q != p && q in index
      ensures Current(c, q, index[q].version) <==> Current(c', q, index[q].version)
    {
      assert SameAt(c', c, q);
    }
    if r.error.None? {
      forall q | q in order
        ensures && (q in [p] + r.transfers <==> !Current(c, q, index[q].version))
                && Current(r.cache, q, index[q].version)
                && (Current(c, q, index[q].version) ==> r.cache.times[q] == c.times[q])
                && (!Current(c, q, index[q].version) ==> q in fetched && r.cache.times[q] == fetched[q])
      {
        if q == p {
          if p !in order[1..] {
            assert SameAt(r.cache, c', p);
          }
        } else {
          assert q in order[1..];
          assert SameAt(c', c, q);
        }
      }
    }
  }

  /** One file found by walking the two local roots, with its current mtime. */
  datatype Walked = Walked(path: Path, mtime: int)

  /** `file_time == _times.get(path)`: an uncached path is never unchanged. */
  predicate Unchanged(c: Cache, w: Walked) {
    w.path in c.times && c.times[w.path] == w.mtime
  }

  function PathsOf(walk: seq<Walked>): (ps: seq<Path>)
    ensures |ps| == |walk| && forall i :: 0 <= i < |walk| ==> ps[i] == walk[i].path
  {
    seq(|walk|, i requires 0 <= i < |walk| => walk[i].path)
  }

  /** A walk lists each file once. */
  predicate DistinctPaths(walk: seq<Walked>) {
    forall i, j :: 0 <= i < j < |walk| ==> walk[i].path != walk[j].path
  }

  /** The walked paths whose mtime differs from the cache, in walk order: the
      files a successful upload pass sends. */
  function Changed(c: Cache, walk: seq<Walked>): seq<Path> {
    if walk == [] then []
    else (if Unchanged(c, walk[0]) then [] else [walk[0].path]) + Changed(c, walk[1..])
  }

  lemma {:induction false} ChangedDependsOnWalkOnly(c: Cache, c': Cache, walk: seq<Walked>)
    requires forall i :: 0 <= i < |walk| ==> (Unchanged(c, walk[i]) <==> Unchanged(c', walk[i]))
    ensures Changed(c, walk) == Changed(c', walk)
  {
    if walk != [] {
      assert Unchanged(c, walk[0]) <==> Unchanged(c', walk[0]);
      ChangedDependsOnWalkOnly(c, c', walk[1..]);
    }
  }

  /** A path no file of the walk has is never among the changed ones. */
  lemma {:induction false} NotChanged(c: Cache, walk: seq<Walked>, p: Path)
    requires p !in PathsOf(walk)
    ensures p !in Changed(c, walk)
  {
    if walk != [] {
      assert PathsOf(walk)[0] == walk[0].path;
      assert forall j :: 0 <= j < |walk| - 1 ==> PathsOf(walk[1..])[j] == PathsOf(walk)[j + 1];
      NotChanged(c, walk[1..], p);
    }
  }

  /** A walked file is uploaded exactly when its mtime differs from the cached
      one; in particular a file the cache has never seen is always uploaded. */
  lemma {:induction false} ChangedIffModified(c: Cache, walk: seq<Walked>, i: int)
    requires DistinctPaths(walk) && 0 <= i < |walk|
    ensures walk[i].path in Changed(c, walk) <==> !Unchanged(c, walk[i])
    ensures walk[i].path !in c.times ==> walk[i].path in Changed(c, walk)
  {
    var rest := walk[1..];
    DistinctRest(walk);
    if i == 0 {
      NotChanged(c, rest, walk[0].path);
    } else {
      assert walk[i] == rest[i - 1];
      assert walk[0].path != walk[i].path;
      ChangedIffModified(c, rest, i - 1);
    }
  }

  /** After the upload pass, the cache holds a walked file's current mtime, and
      the version the upload returned if it changed, its old version otherwise. */
  predicate Synced(before: Cache, after: Cache, w: Walked, put: Path -> Reply<Version>) {
    && w.path in after.times && after.times[w.path] == w.mtime
    && w.path in after.versions
    && (Unchanged(before, w) ==> w.path in before.versions && after.versions[w.path] == before.versions[w.path])
    && (!Unchanged(before, w) ==> put(w.path).Delivered? && after.versions[w.path] == put(w.path).payload)
  }

  /** What the upload loop promises about its result `r`, starting from cache
      `c` over `walk`: the cache stays valid and is untouched outside the walked
      paths; the loop raises exactly when some changed file's upload does not
      return 200; and on success it uploaded exactly the changed files, in walk
      order, and every walked file is synced. */
  ghost predicate Uploaded(c: Cache, walk: seq<Walked>, put: Path -> Reply<Version>, r: Pass) {
    && r.cache.Valid()
    && (forall p :: p !in PathsOf(walk) ==> SameAt(r.cache, c, p))
    && (r.error.None? <==> forall i :: 0 <= i < |walk| && !Unchanged(c, walk[i]) ==> IsOk(put(walk[i].path)))
    && (r.error.None? ==> r.transfers == Changed(c, walk))
    && (r.error.None? ==> forall i :: 0 <= i < |walk| ==> Synced(c, r.cache, walk[i], put))
  }

  /** The upload loop over the walked files.  `put` is the object store's reply
      to uploading each path: a client error, or a status with the new version id. */
  function UploadEach(c: Cache, walk: seq<Walked>, put: Path -> Reply<Version>): (r: Pass)
    requires c.Valid() && DistinctPaths(walk)
    ensures Uploaded(c, walk, put, r)
    decreases |walk|
  {
    if walk == [] then Pass(c, [], None)
    else
      var w := walk[0];
      DistinctRest(walk);
      if Unchanged(c, w) then
        var r := UploadEach(c, walk[1..], put);
        UploadSkip(c, walk, put, r);
        r
      else
        match put(w.path)
        case Rejected(code) =>
          UploadFirstFails(c, walk, put);
          Pass(c, [], Some(ClientError(code)))
        case Delivered(status, version) =>
          if status != 200 then
            UploadFirstFails(c, walk, put);
            Pass(c, [], Some(BadStatus(status)))
          else
            var c' := Record(c, w.path, version, w.mtime);
            var r := UploadEach(c', walk[1..], put);
            UploadFirstSent(c, c', walk, put, r);
            Pass(r.cache, [w.path] + r.transfers, r.error)
  }

  /** The rest of a walk lists each file once and not the first. */
  lemma DistinctRest(walk: seq<Walked>)
    requires walk != [] && DistinctPaths(walk)
    ensures DistinctPaths(walk[1..]) && walk[0].path !in PathsOf(walk[1..])
  {
    var rest := walk[1..];
    forall j | 0 <= j < |rest| ensures PathsOf(rest)[j] != walk[0].path {
      assert rest[j] == walk[j + 1];
    }
  }

  /** A changed first file whose upload does not return 200 ends the loop with
      the cache as it was. */
  lemma UploadFirstFails(c: Cache, walk: seq<Walked>, put: Path -> Reply<Version>)
    requires c.Valid() && walk != [] && !Unchanged(c, walk[0]) && !IsOk(put(walk[0].path))
    ensures forall e :: Uploaded(c, walk, put, Pass(c, [], Some(e)))
  {
  }

  /** A changed first file uploaded into `c'`: the loop over the rest, started
      from `c'`, completes the loop over the whole walk. */
  lemma UploadFirstSent(c: Cache, c': Cache, walk: seq<Walked>, put: Path -> Reply<Version>, r: Pass)
    requires walk != [] && walk[0].path !in PathsOf(walk[1..])
    requires !Unchanged(c, walk[0]) && IsOk(put(walk[0].path))
    requires c' == Record(c, walk[0].path, put(walk[0].path).payload, walk[0].mtime)
    requires Uploaded(c', walk[1..], put, r)
    ensures Uploaded(c, walk, put, Pass(r.cache, [walk[0].path] + r.transfers, r.error))
  {
    var w, rest := walk[0], walk[1..];
    assert walk == [w] + rest;
    UploadStep(c, c', w, rest, put);
    UploadStepUntouched(c, c', w, rest, r);
    UploadStepSynced(c, c', w, rest, put, r);
    UploadStepError(c, c', walk, put, r);
  }

  /** A file whose mtime matches the cache is skipped: the loop over the rest
      of the walk is the loop over the whole walk. */
  lemma UploadSkip(c: Cache, walk: seq<Walked>, put: Path -> Reply<Version>, r: Pass)
    requires c.Valid()
    requires walk != [] && Unchanged(c, walk[0]) && walk[0].path !in PathsOf(walk[1..])
    requires Uploaded(c, walk[1..], put, r)
    ensures Uploaded(c, walk, put, r)
  {
    var rest := walk[1..];
    assert forall i :: 1 <= i < |walk| ==> walk[i] == rest[i - 1];
    forall p | p !in PathsOf(walk) ensures SameAt(r.cache, c, p) {
      assert p != PathsOf(walk)[0];
      assert p !in PathsOf(rest) by {
        forall j | 0 <= j < |rest| ensures PathsOf(rest)[j] != p {
          assert PathsOf(walk)[j + 1] == PathsOf(rest)[j];
        }
      }
    }
    if r.error.None? {
      forall i | 0 <= i < |walk| ensures Synced(c, r.cache, walk[i], put) {
        if i == 0 {
          assert SameAt(r.cache, c, walk[0].path);
        } else {
          assert Synced(c, r.cache, rest[i - 1], put);
        }
      }
    }
  }

  /** After the first file is uploaded successfully, the loop raises exactly
      when the rest of the walk has a changed file whose put fails. */
  lemma UploadStepError(c: Cache, c': Cache, walk: seq<Walked>, put: Path -> Reply<Version>, r: Pass)
    requires walk != [] && !Unchanged(c, walk[0]) && IsOk(put(walk[0].path))
    requires forall i :: 0 <= i < |walk[1..]| ==> (Unchanged(c, walk[1..][i]) <==> Unchanged(c', walk[1..][i]))
    requires r.error.None? <==> forall i :: 0 <= i < |walk[1..]| && !Unchanged(c', walk[1..][i]) ==> IsOk(put(walk[1..][i].path))
    ensures r.error.None? <==> forall i :: 0 <= i < |walk| && !Unchanged(c, walk[i]) ==> IsOk(put(walk[i].path))
  {
    assert forall i :: 1 <= i < |walk| ==> walk[i] == walk[1..][i - 1];
  }

  /** The cache after recording the first walked file treats the rest of the walk
      as the original cache does. */
  lemma UploadStep(c: Cache, c': Cache, w: Walked, rest: seq<Walked>, put: Path -> Reply<Version>)
    requires w.path !in PathsOf(rest)
    requires forall q :: q != w.path ==> SameAt(c', c, q)
    ensures forall i :: 0 <= i < |rest| ==> (Unchanged(c, rest[i]) <==> Unchanged(c', rest[i]))
    ensures Changed(c, rest) == Changed(c', rest)
  {
    forall i | 0 <= i < |rest| ensures Unchanged(c, rest[i]) <==> Unchanged(c', rest[i]) {
      assert PathsOf(rest)[i] == rest[i].path;
      assert SameAt(c', c, rest[i].path);
    }
    ChangedDependsOnWalkOnly(c, c', rest);
  }

  /** Paths outside the rest of the walk are untouched by the recursive call;
      outside the whole walk they are untouched by the whole loop. */
  lemma UploadStepUntouched(c: Cache, c': Cache, w: Walked, rest: seq<Walked>, r: Pass)
    requires forall q :: q != w.path ==> SameAt(c', c, q)
    requires forall p :: p !in PathsOf(rest) ==> SameAt(r.cache, c', p)
    ensures forall p :: p !in PathsOf([w] + rest) ==> SameAt(r.cache, c, p)
  {
    var walk := [w] + rest;
    forall p | p !in PathsOf(walk) ensures SameAt(r.cache, c, p) {
      assert PathsOf(walk)[0] == w.path;
      assert p !in PathsOf(rest) by {
        forall j | 0 <= j < |rest| ensures PathsOf(rest)[j] != p {
          assert PathsOf(walk)[j + 1] == PathsOf(rest)[j];
        }
      }
      assert SameAt(r.cache, c', p);
      assert SameAt(c', c, p);
    }
  }

  /** Every file of the rest of the walk synced from `c'` is synced from `c`, and
      the first file, uploaded into `c'`, stays as recorded. */
  lemma UploadStepSynced(c: Cache, c': Cache, w: Walked, rest: seq<Walked>, put: Path -> Reply<Version>, r: Pass)
    requires w.path !in PathsOf(rest)
    requires !Unchanged(c, w) && IsOk(put(w.path))
    requires Current(c', w.path, put(w.path).payload) && w.path in c'.times && c'.times[w.path] == w.mtime
    requires forall q :: q != w.path ==> SameAt(c', c, q)
    requires forall i :: 0 <= i < |rest| ==> (Unchanged(c, rest[i]) <==> Unchanged(c', rest[i]))
    requires SameAt(r.cache, c', w.path)
    requires r.error.None? ==> forall i :: 0 <= i < |rest| ==> Synced(c', r.cache, rest[i], put)
    ensures r.error.None? ==> forall i :: 0 <= i < |[w] + rest| ==> Synced(c, r.cache, ([w] + rest)[i], put)
  {
    var walk := [w] + rest;
    forall i | 0 <= i < |walk| && r.error.None? ensures Synced(c, r.cache, walk[i], put) {
      if i > 0 {
        assert walk[i] == rest[i - 1];
        assert Synced(c', r.cache, rest[i - 1], put);
        assert PathsOf(rest)[i - 1] == rest[i - 1].path;
        assert SameAt(c', c, rest[i - 1].path);
      }
    }
  }

  /** The index published from a cache: every cached path with its version and
      mtime, including paths no longer found on disk. */
  function ToIndex(c: Cache): (ix: Index)
    requires c.Valid()
    ensures ix.Keys == c.versions.Keys
  {
    map p | p in c.versions :: Entry(c.versions[p], c.times[p])
  }

  /** The cache an index describes. */
  function FromIndex(ix: Index): (c: Cache)
    ensures c.Valid() && c.versions.Keys == ix.Keys
  {
    Cache(map p | p in ix :: ix[p].version, map p | p in ix :: ix[p].time)
  }

  /** Publishing loses nothing: the cache can be read back from its index. */
  lemma CacheRoundTrip(c: Cache)
    requires c.Valid()
    ensures FromIndex(ToIndex(c)) == c
  {
    var d := FromIndex(ToIndex(c));
    assert d.versions == c.versions;
    assert d.times == c.times;
  }

  lemma IndexRoundTrip(ix: Index)
    ensures ToIndex(FromIndex(ix)) == ix
  {
  }

  /** The download pass (`sync_data(download=True)`): read the index, then bring
      each indexed path up to its indexed version.  `order` lists the paths of the
      stored index in the order its JSON lists them. */
  function DownloadPass(c: Cache, item: Option<Index>, gets: seq<Reply<()>>,
                        order: seq<Path>, fetched: map<Path, int>): (r: Pass)
    requires c.Valid()
    requires forall p :: p in order <==> p in Contents(item)
    ensures r.cache.Valid()
    ensures forall p :: p !in Contents(item) ==> SameAt(r.cache, c, p)
    ensures GetFiles(item, gets).Err? ==> r == Pass(c, [], Some(GetFiles(item, gets).failure))
    ensures r.error.None? ==> forall p :: p in Contents(item) ==>
      && Current(r.cache, p, Contents(item)[p].version)
      && (p in r.transfers <==> !Current(c, p, Contents(item)[p].version))
      && (!Current(c, p, Contents(item)[p].version) ==> p in fetched)
      && r.cache.times[p] == (if Current(c, p, Contents(item)[p].version) then c.times[p] else fetched[p])
  {
    match GetFiles(item, gets)
    case Err(f) => Pass(c, [], Some(f))
    case Ok(index) =>
      assert forall i :: 0 <= i < |order| ==> order[i] in index;
      DownloadEach(c, index, order, fetched)
  }

  /** The outcome of the upload pass: the pass itself and the index item after it. */
  datatype Upload = Upload(pass: Pass, item: Option<Index>)

  /** The upload pass (`sync_data(upload=True)`): upload changed files, then write
      the whole cache as the new index. */
  function UploadPass(c: Cache, walk: seq<Walked>, put: Path -> Reply<Version>,
                      item: Option<Index>, puts: seq<Reply<()>>): (u: Upload)
    requires c.Valid() && DistinctPaths(walk)
    ensures u.pass.cache.Valid()
    ensures u.pass.error.None? ==> u.pass.transfers == Changed(c, walk)
    ensures u.pass.error.None? ==> u.item == Some(ToIndex(u.pass.cache))
    ensures u.pass.error.None? ==> forall p :: p in Contents(u.item) <==> p in c.versions || p in PathsOf(walk)
    ensures u.pass.error.None? ==> forall i :: 0 <= i < |walk| ==> Synced(c, u.pass.cache, walk[i], put)
    ensures u.pass.error.None? ==> WalkPublished(walk, Contents(u.item))
    ensures forall p :: p !in PathsOf(walk) ==> SameAt(u.pass.cache, c, p)
    ensures u.pass.error.Some? ==> u.item == item
  {
    var r := UploadEach(c, walk, put);
    if r.error.Some? then Upload(r, item)
    else
      var w := PutFiles(item, ToIndex(r.cache), puts);
      assert forall p :: p in r.cache.versions ==> p in c.versions || p in PathsOf(walk) by {
        forall p | p in r.cache.versions && p !in PathsOf(walk) ensures p in c.versions {
          assert SameAt(r.cache, c, p);
        }
      }
      assert forall p :: p in PathsOf(walk) ==> p in r.cache.versions by {
        forall p | p in PathsOf(walk) ensures p in r.cache.versions {
          var i :| 0 <= i < |walk| && PathsOf(walk)[i] == p;
          assert Synced(c, r.cache, walk[i], put);
        }
      }
      SyncedIsPublished(c, r.cache, walk, put);
      Upload(Pass(r.cache, r.transfers, w.error), w.item)
  }

  /** Every walked file appears in the index with the mtime the walk found. */
  predicate WalkPublished(walk: seq<Walked>, ix: Index) {
    forall i :: 0 <= i < |walk| ==> walk[i].path in ix && ix[walk[i].path].time == walk[i].mtime
  }

  /** A cache in which every walked file is synced publishes the walk. */
  lemma SyncedIsPublished(c: Cache, after: Cache, walk: seq<Walked>, put: Path -> Reply<Version>)
    requires after.Valid()
    requires forall i :: 0 <= i < |walk| ==> Synced(c, after, walk[i], put)
    ensures WalkPublished(walk, ToIndex(after))
  {
  }

  /** When every changed file's upload and the index write are answered 200, the
      published index holds, for each walked file, the version id its upload
      returned (or the cached one when its mtime was unchanged) and its walked
      mtime; every path the walk did not find keeps its cached entry. */
  lemma UploadPublishesVersions(c: Cache, walk: seq<Walked>, put: Path -> Reply<Version>,
                                item: Option<Index>, puts: seq<Reply<()>>, i: int)
    requires c.Valid() && DistinctPaths(walk)
    requires forall j :: 0 <= j < |walk| && !Unchanged(c, walk[j]) ==> IsOk(put(walk[j].path))
    requires Settled(puts).Some? && IsOk(puts[Settled(puts).value])
    requires 0 <= i < |walk|
    ensures var ix := Contents(UploadPass(c, walk, put, item, puts).item);
      && walk[i].path in ix
      && ix[walk[i].path].time == walk[i].mtime
      && (!Unchanged(c, walk[i]) ==> put(walk[i].path).Delivered? && ix[walk[i].path].version == put(walk[i].path).payload)
      && (Unchanged(c, walk[i]) ==> walk[i].path in c.versions && ix[walk[i].path].version == c.versions[walk[i].path])
    ensures var ix := Contents(UploadPass(c, walk, put, item, puts).item);
      forall p :: p !in PathsOf(walk) && p in c.versions ==> p in ix && ix[p] == Entry(c.versions[p], c.times[p])
  {
    assert UploadEach(c, walk, put).error.None?;
  }

  /** `sync_data` itself: the download pass, then the upload pass, each when asked. */
  datatype SyncInputs = SyncInputs(
    gets: seq<Reply<()>>, order: seq<Path>, fetched: map<Path, int>,
    walk: seq<Walked>, put: Path -> Reply<Version>, puts: seq<Reply<()>>)

  predicate SyncReady(c: Cache, item: Option<Index>, s: SyncInputs) {
    && c.Valid()
    && (forall i :: 0 <= i < |s.order| ==> s.order[i] in Contents(item))
    && (forall p :: p in Contents(item) ==> p in s.order)
    && DistinctPaths(s.walk)
  }

  function SyncData(c: Cache, item: Option<Index>, download: bool, upload: bool, s: SyncInputs): (u: Upload)
    requires SyncReady(c, item, s)
    ensures u.pass.cache.Valid()
    ensures !download && !upload ==> u == Upload(Pass(c, [], None), item)
    ensures download && !upload ==> u == Upload(DownloadPass(c, item, s.gets, s.order, s.fetched), item)
    ensures !download && upload ==> u == UploadPass(c, s.walk, s.put, item, s.puts)
  {
    var d := if download then DownloadPass(c, item, s.gets, s.order, s.fetched) else Pass(c, [], None);
    if d.error.Some? || !upload then Upload(d, item)
    else
      var u := UploadPass(d.cache, s.walk, s.put, item, s.puts);
      Upload(Pass(u.pass.cache, d.transfers + u.pass.transfers, u.pass.error), u.item)
  }

  /** Uploading an unchanged file set transfers nothing and changes nothing. */
  lemma {:induction false} QuietWhenNothingChanged(c: Cache, walk: seq<Walked>, put: Path -> Reply<Version>)
    requires c.Valid() && DistinctPaths(walk)
    requires forall i :: 0 <= i < |walk| ==> Unchanged(c, walk[i])
    ensures UploadEach(c, walk, put) == Pass(c, [], None)
  {
    if walk != [] {
      assert Unchanged(c, walk[0]);
      QuietWhenNothingChanged(c, walk[1..], put);
    }
  }

  /** A second upload pass over the same walk sends nothing. */
  lemma SecondUploadIsQuiet(c: Cache, walk: seq<Walked>, put: Path -> Reply<Version>, put': Path -> Reply<Version>)
    requires c.Valid() && DistinctPaths(walk)
    requires UploadEach(c, walk, put).error.None?
    ensures var c' := UploadEach(c, walk, put).cache; UploadEach(c', walk, put') == Pass(c', [], None)
  {
    var c' := UploadEach(c, walk, put).cache;
    assert forall i :: 0 <= i < |walk| ==> Unchanged(c', walk[i]);
    QuietWhenNothingChanged(c', walk, put');
  }

  /** Downloading the index this environment itself published fetches nothing
      and changes nothing. */
  lemma {:induction false} OwnIndexDownloadsNothing(c: Cache, order: seq<Path>, fetched: map<Path, int>)
    requires c.Valid()
    requires forall i :: 0 <= i < |order| ==> order[i] in ToIndex(c)
    ensures DownloadEach(c, ToIndex(c), order, fetched) == Pass(c, [], None)
  {
    if order != [] {
      assert Current(c, order[0], ToIndex(c)[order[0]].version);
      OwnIndexDownloadsNothing(c, order[1..], fetched);
    }
  }

  /** A cold environment has nothing current: its download fetches every listed
      path, succeeding exactly when the object store can serve them all, and
      records each one's mtime after the download. */
  lemma ColdDownloadFetchesAll(index: Index, order: seq<Path>, fetched: map<Path, int>)
    requires forall i :: 0 <= i < |order| ==> order[i] in index
    ensures var r := DownloadEach(Cold, index, order, fetched);
      && (r.error.None? <==> forall p :: p in order ==> p in fetched)
      && (r.error.None? ==> forall p :: p in order ==>
            p in r.transfers && p in r.cache.times && r.cache.times[p] == fetched[p])
  {
    var r := DownloadEach(Cold, index, order, fetched);
    assert forall p, v :: !Current(Cold, p, v);
  }

  /** The download pass over the index a cache published reads it back and
      fetches nothing. */
  lemma PublishedIndexDownloadsNothing(c: Cache, gets: seq<Reply<()>>, order: seq<Path>, fetched: map<Path, int>)
    requires c.Valid()
    requires forall p :: p in order <==> p in ToIndex(c)
    requires Settled(gets).Some? && IsOk(gets[Settled(gets).value])
    ensures DownloadPass(c, Some(ToIndex(c)), gets, order, fetched) == Pass(c, [], None)
  {
    assert GetFiles(Some(ToIndex(c)), gets) == Ok(ToIndex(c));
    OwnIndexDownloadsNothing(c, order, fetched);
  }
}

=== FILE: handler.dfy ===
/** The invocation handler: routes each gateway event either straight to the
    local server (static media) or through the exclusive section, which stops
    the server, takes the lock, downloads, starts, forwards, stops, uploads and
    releases.  The warm environment (process handle and sync cache) and the
    index item are threaded through explicitly; everything the outside world
    answers is bundled in a `World`. */
module Handler {
  import opened Common
  import opened IndexStore
  import LeaseLock
  import FileSync
  import Supervisor
  import Translator

  // ---- routing --------------------------------------------------------------------

  /** The mount point the gateway adds in front of every path. */
  const MountPrefix: string := "/grafana"

  /** Paths served from static media. */
  const StaticPrefix: string := "/public/"

  /** Substitution of the start-anchored mount pattern with the empty string.  The
      pattern is anchored at the very start, so at most one occurrence goes. */
  function StripPrefix(path: string): (p: string)
    ensures StartsWith(path, MountPrefix) ==> MountPrefix + p == path
    ensures !StartsWith(path, MountPrefix) ==> p == path
    ensures |p| <= |path|
  {
    if StartsWith(path, MountPrefix) then
      assert path == path[..|MountPrefix|] + path[|MountPrefix|..];
      path[|MountPrefix|..]
    else path
  }

  /** Mounting a path and stripping the mount gives the path back, whatever the
      path is, including one that itself begins with the mount. */
  lemma StripUndoesMount(p: string)
    ensures StripPrefix(MountPrefix + p) == p
  {
    assert (MountPrefix + p)[..|MountPrefix|] == MountPrefix;
  }

  /** Only one mount prefix goes: a doubly mounted path keeps the inner one. */
  lemma StripOnce(p: string)
    ensures StripPrefix(MountPrefix + MountPrefix + p) == MountPrefix + p
  {
    assert MountPrefix + MountPrefix + p == MountPrefix + (MountPrefix + p);
    StripUndoesMount(MountPrefix + p);
  }

  /** The pattern has no word boundary: `/grafanax` becomes `x`. */
  lemma StripIgnoresBoundary()
    ensures StripPrefix("/grafanax") == "x"
  {
    StripUndoesMount("x");
    assert MountPrefix + "x" == "/grafanax";
  }

  /** A mounted static asset is routed to `/public/…`; a mounted API path and a
      bare `/public` are not static. */
  lemma RoutingExamples()
    ensures StripPrefix("/grafana/public/img/x.png") == "/public/img/x.png"
    ensures IsStatic(StripPrefix("/grafana/public/img/x.png"))
    ensures !IsStatic(StripPrefix("/grafana/api/search"))
    ensures !IsStatic(StripPrefix("/public"))
  {
    StripUndoesMount("/public/img/x.png");
    assert MountPrefix + "/public/img/x.png" == "/grafana/public/img/x.png";
    var api := "/api/search";
    StripUndoesMount(api);
    assert MountPrefix + api == "/grafana/api/search";
    assert api[1] != StaticPrefix[1];
  }

  /** Static media bypasses the lock and the data sync. */
  predicate IsStatic(path: string) {
    StartsWith(path, StaticPrefix)
  }

  // ---- the invocation ------------------------------------------------------------

  /** The side effects an invocation performs, in the order it performs them.  An
      effect is listed when it is attempted, whether or not it then raises. */
  datatype Effect =
    | StopServer
    | AcquireLock
    | Download
    | StartServer
    | Forward
    | Upload
    | ReleaseLock

  /** The module-level state a warm environment carries between invocations. */
  datatype Warm = Warm(proc: Supervisor.Proc, cache: FileSync.Cache)

  /** Everything the outside world answers during one invocation: whether the
      server binaries are installed, whether each stop returns within its five
      seconds, the lock table's answers, the object store's and the index table's
      answers to the sync passes, the delete replies of the release loop, the
      library code, and the local server. */
  datatype World = World(
    homeExists: bool,
    firstStopExits: bool,
    secondStopExits: bool,
    rounds: seq<LeaseLock.Round>,
    sync: FileSync.SyncInputs,
    releaseReplies: seq<Reply<()>>,
    lib: Translator.Library,
    server: Translator.Request -> Option<Translator.Upstream>)

  /** The state an invocation leaves behind, the effects it performed, and the
      response it returns or the error it raises. */
  datatype Invocation = Invocation(
    warm: Warm, item: Option<Index>, trace: seq<Effect>, result: Result<Translator.Response>)

  /** The effects of the locked section, in order. */
  const LockedSteps: seq<Effect> := [Download, StartServer, Forward, StopServer, Upload]

  /** The state the locked section leaves, how many of its steps it reached (the
      last one reached is the one that raised, if any) and its outcome. */
  datatype Section = Section(warm: Warm, item: Option<Index>, reached: nat, result: Result<Translator.Response>)

  /** The section run while holding the lock: download, start, forward, stop,
      upload.  The first step that raises ends the section. */
  function Locked(w: Warm, ev: Translator.Event, path: string, item: Option<Index>, env: World): (r: Section)
    requires FileSync.SyncReady(w.cache, item, env.sync)
    ensures r.warm.cache.Valid()
    ensures 1 <= r.reached <= 5
    ensures r.result.Ok? ==> r.reached == 5 && r.result == Translator.Proxy(path, ev, env.lib, env.server)
    ensures r.result.Ok? ==>
      && r.warm.proc == Supervisor.NoProcess
      && r.item == Some(FileSync.ToIndex(r.warm.cache))
    ensures r.reached < 5 ==> r.result.Err? && r.item == item
  {
    var down := FileSync.SyncData(w.cache, item, true, false, env.sync);
    if down.pass.error.Some? then
      Section(Warm(w.proc, down.pass.cache), item, 1, Err(down.pass.error.value))
    else
      Serve(Warm(w.proc, down.pass.cache), ev, path, item, env)
  }

  /** The locked section after a successful download: start, then forward. */
  function Serve(w: Warm, ev: Translator.Event, path: string, item: Option<Index>, env: World): (r: Section)
    requires FileSync.SyncReady(w.cache, item, env.sync)
    ensures r.warm.cache.Valid()
    ensures 2 <= r.reached <= 5
    ensures r.result.Ok? ==> r.reached == 5 && r.result == Translator.Proxy(path, ev, env.lib, env.server)
    ensures r.result.Ok? ==>
      && r.warm.proc == Supervisor.NoProcess
      && r.item == Some(FileSync.ToIndex(r.warm.cache))
    ensures r.reached < 5 ==> r.result.Err? && r.item == item
  {
    var st := Supervisor.Start(w.proc, ev.headers, ev.stage);
    if st.error.Some? then
      Section(Warm(st.proc, w.cache), item, 2, Err(st.error.value))
    else
      var resp := Translator.Proxy(path, ev, env.lib, env.server);
      if resp.Err? then
        Section(Warm(st.proc, w.cache), item, 3, Err(resp.failure))
      else
        Finish(Warm(st.proc, w.cache), resp, item, env)
  }

  /** The locked section after the response is in hand: stop the server, then
      upload and publish the index.  The response is returned only if both
      succeed. */
  function Finish(w: Warm, resp: Result<Translator.Response>, item: Option<Index>, env: World): (r: Section)
    requires resp.Ok?
    requires FileSync.SyncReady(w.cache, item, env.sync)
    ensures r.warm.cache.Valid()
    ensures r.reached == 4 || r.reached == 5
    ensures r.result.Ok? ==> r.result == resp && r.reached == 5
    ensures r.result.Ok? ==>
      && r.warm.proc == Supervisor.NoProcess
      && r.item == Some(FileSync.ToIndex(r.warm.cache))
    ensures r.reached == 4 ==> r.result.Err? && r.item == item
  {
    var sp := Supervisor.Stop(w.proc, env.secondStopExits);
    if sp.error.Some? then
      Section(Warm(sp.proc, w.cache), item, 4, Err(sp.error.value))
    else
      var up := FileSync.SyncData(w.cache, item, false, true, env.sync);
      var result := if up.pass.error.Some? then Err(up.pass.error.value) else resp;
      Section(Warm(sp.proc, up.pass.cache), up.item, 5, result)
  }

  /** Leaving the lock's `with` block: the release runs after the section whether
      or not it raised, and an error from the release replaces the section's.
      A section cut off by the deadline never reaches the release. */
  function Unlock(body: Result<Translator.Response>, env: World): (r: (bool, Result<Translator.Response>))
    ensures body == Err(Deadline) ==> r == (false, body)
    ensures body != Err(Deadline) ==> r.0
    ensures body != Err(Deadline) ==>
      match LeaseLock.Release(env.releaseReplies)
      case Released(_) => r.1 == body
      case ReleaseFailed(_, f) => r.1 == Err(f)
      case ReleaseStalled => r.1 == Err(Deadline)
  {
    if body == Err(Deadline) then (false, body)
    else
      match LeaseLock.Release(env.releaseReplies)
      case Released(_) => (true, body)
      case ReleaseFailed(_, f) => (true, Err(f))
      case ReleaseStalled => (true, Err(Deadline))
  }

  /** The effects of an invocation that holds the lock: the stop and the acquire,
      the locked steps it reached, and the release if it got that far. */
  function HeldTrace(reached: nat, released: bool): (t: seq<Effect>)
    requires 1 <= reached <= |LockedSteps|
  {
    [StopServer, AcquireLock] + LockedSteps[..reached] + (if released then [ReleaseLock] else [])
  }

  /** Such a trace starts with stop, acquire, download; it touches the data only
      after the acquire; and it releases at its end and nowhere else. */
  lemma HeldTraceShape(reached: nat, released: bool)
    requires 1 <= reached <= |LockedSteps|
    ensures var t := HeldTrace(reached, released);
      && |t| >= 3 && t[..3] == [StopServer, AcquireLock, Download]
      && Guarded(t)
      && (ReleaseLock in t <==> released)
      && (released ==> t[|t| - 1] == ReleaseLock)
      && (released ==> |t| == reached + 3 && t[..|t| - 1] == [StopServer, AcquireLock] + LockedSteps[..reached])
      && (reached == |LockedSteps| && released ==> t == ExclusiveSteps)
  {
    var t := HeldTrace(reached, released);
    assert ReleaseLock !in LockedSteps[..reached];
    assert LockedSteps[..|LockedSteps|] == LockedSteps;
  }

  /** The exclusive path once the lock is held: the locked section, then leaving
      the `with` block. */
  function Hold(w: Warm, ev: Translator.Event, path: string, item: Option<Index>, env: World): (r: Invocation)
    requires FileSync.SyncReady(w.cache, item, env.sync)
    ensures r.warm.cache.Valid()
    ensures |r.trace| >= 3 && r.trace[..3] == [StopServer, AcquireLock, Download]
    ensures Guarded(r.trace)
    ensures ReleaseLock in r.trace <==> Locked(w, ev, path, item, env).result != Err(Deadline)
    ensures r.result != Err(Deadline) ==> r.trace[|r.trace| - 1] == ReleaseLock
    ensures r.result != Err(Deadline) ==> 4 <= |r.trace| <= 8 && r.trace == HeldTrace(|r.trace| - 3, true)
    ensures r.result.Ok? ==>
      && r.trace == ExclusiveSteps
      && r.result == Translator.Proxy(path, ev, env.lib, env.server)
      && r.warm.proc == Supervisor.NoProcess
      && r.item == Some(FileSync.ToIndex(r.warm.cache))
      && LeaseLock.Release(env.releaseReplies).Released?
  {
    var body := Locked(w, ev, path, item, env);
    var (released, result) := Unlock(body.result, env);
    HeldTraceShape(body.reached, released);
    Invocation(body.warm, body.item, HeldTrace(body.reached, released), result)
  }

  /** The exclusive path: stop the server outside the lock, take the lock, run the
      locked section and release. */
  function Exclusive(w: Warm, ev: Translator.Event, path: string, item: Option<Index>, env: World): (r: Invocation)
    requires FileSync.SyncReady(w.cache, item, env.sync)
    ensures r.warm.cache.Valid()
    ensures 1 <= |r.trace| && r.trace[0] == StopServer
  {
    var sp := Supervisor.Stop(w.proc, env.firstStopExits);
    if sp.error.Some? then
      Invocation(Warm(sp.proc, w.cache), item, [StopServer], Err(sp.error.value))
    else
      match LeaseLock.Acquire(env.rounds)
      case AcquireFailed(_, f) =>
        Invocation(Warm(sp.proc, w.cache), item, [StopServer, AcquireLock], Err(f))
      case StillWaiting =>
        Invocation(Warm(sp.proc, w.cache), item, [StopServer, AcquireLock], Err(Deadline))
      case Acquired(_, _) =>
        Hold(Warm(sp.proc, w.cache), ev, path, item, env)
  }

  /** The static path: reuse or start the server, then forward. */
  function Bypass(w: Warm, ev: Translator.Event, path: string, item: Option<Index>, env: World): (r: Invocation)
    ensures r.item == item && r.warm.cache == w.cache
    ensures r.trace == [StartServer] || r.trace == [StartServer, Forward]
    ensures r.trace == [StartServer] <==> Supervisor.Start(w.proc, ev.headers, ev.stage).error.Some?
    ensures r.result.Ok? ==> r.result == Translator.Proxy(path, ev, env.lib, env.server)
  {
    var st := Supervisor.Start(w.proc, ev.headers, ev.stage);
    if st.error.Some? then
      Invocation(Warm(st.proc, w.cache), item, [StartServer], Err(st.error.value))
    else
      Invocation(Warm(st.proc, w.cache), item, [StartServer, Forward], Translator.Proxy(path, ev, env.lib, env.server))
  }

  /** The handler: refuse to run before the build installed the server, strip the
      mount prefix, then take the static or the exclusive path. */
  function Handle(w: Warm, ev: Translator.Event, item: Option<Index>, env: World): (r: Invocation)
    requires FileSync.SyncReady(w.cache, item, env.sync)
    ensures r.warm.cache.Valid()
  {
    if !env.homeExists then Invocation(w, item, [], Err(NotBuilt))
    else
      var path := StripPrefix(ev.path);
      if IsStatic(path) then Bypass(w, ev, path, item, env)
      else Exclusive(w, ev, path, item, env)
  }

  // ---- what an invocation guarantees -------------------------------------------------

  /** The effects of a successful exclusive invocation. */
  const ExclusiveSteps: seq<Effect> := [StopServer, AcquireLock] + LockedSteps + [ReleaseLock]

  /** The data is touched only under the lock: every download and upload comes
      after the acquire.  That the acquire succeeded is `LockBracketsSync`'s. */
  predicate Guarded(t: seq<Effect>) {
    forall i :: 0 <= i < |t| && (t[i].Download? || t[i].Upload?) ==> 2 <= i && t[1] == AcquireLock
  }

  /** Without the server installed the handler raises before doing anything. */
  lemma NotBuiltRaisesFirst(w: Warm, ev: Translator.Event, item: Option<Index>, env: World)
    requires FileSync.SyncReady(w.cache, item, env.sync)
    requires !env.homeExists
    ensures Handle(w, ev, item, env) == Invocation(w, item, [], Err(NotBuilt))
  {
  }

  /** Static media never takes the lock, never syncs and leaves the index and the
      cache alone; it forwards the path with the mount stripped. */
  lemma StaticBypassesLock(w: Warm, ev: Translator.Event, item: Option<Index>, env: World)
    requires FileSync.SyncReady(w.cache, item, env.sync)
    requires env.homeExists && IsStatic(StripPrefix(ev.path))
    ensures var r := Handle(w, ev, item, env);
      && AcquireLock !in r.trace && ReleaseLock !in r.trace
      && Download !in r.trace && Upload !in r.trace
      && r.item == item && r.warm.cache == w.cache
      && (r.result.Ok? ==> r.result == Translator.Proxy(StripPrefix(ev.path), ev, env.lib, env.server))
  {
  }

  /** A running server whose stop does not return in time makes the invocation
      raise before the lock is requested. */
  lemma StuckServerBlocksLock(w: Warm, ev: Translator.Event, item: Option<Index>, env: World)
    requires FileSync.SyncReady(w.cache, item, env.sync)
    requires env.homeExists && !IsStatic(StripPrefix(ev.path))
    requires w.proc.Running? && !env.firstStopExits
    ensures Handle(w, ev, item, env) == Invocation(w, item, [StopServer], Err(StopTimeout))
  {
  }

  /** The lock brackets the sync: downloads and uploads happen only after a
      successful acquire; a release happens only after one; and once the lock is
      held, the release is the last effect unless the invocation was cut off by
      its deadline. */
  lemma LockBracketsSync(w: Warm, ev: Translator.Event, item: Option<Index>, env: World)
    requires FileSync.SyncReady(w.cache, item, env.sync)
    ensures var r := Handle(w, ev, item, env);
      && Guarded(r.trace)
      && (Download in r.trace || Upload in r.trace || ReleaseLock in r.trace ==> LeaseLock.Acquire(env.rounds).Acquired?)
      && (ReleaseLock in r.trace ==> |r.trace| >= 3 && r.trace[..3] == [StopServer, AcquireLock, Download])
      && (Download in r.trace && r.result != Err(Deadline) ==> r.trace[|r.trace| - 1] == ReleaseLock)
  {
  }

  /** Once the lock is held, an error raised by a locked step is followed by the
      release and nothing else: the trace is the locked steps up to the one that
      raised, then the release. */
  lemma FailureGoesStraightToRelease(w: Warm, ev: Translator.Event, item: Option<Index>, env: World)
    requires FileSync.SyncReady(w.cache, item, env.sync)
    requires env.homeExists && !IsStatic(StripPrefix(ev.path))
    requires Supervisor.Stop(w.proc, env.firstStopExits).error.None?
    requires LeaseLock.Acquire(env.rounds).Acquired?
    requires Handle(w, ev, item, env).result.Err? && Handle(w, ev, item, env).result != Err(Deadline)
    ensures var t := Handle(w, ev, item, env).trace;
      && |t| >= 4 && t[|t| - 1] == ReleaseLock
      && t[..|t| - 1] == [StopServer, AcquireLock] + LockedSteps[..|t| - 3]
  {
    var t := Handle(w, ev, item, env).trace;
    HeldTraceShape(|t| - 3, true);
  }

  /** A successful exclusive invocation performs every step exactly once and in
      order, returns the server's response, leaves the server stopped and
      publishes its whole cache as the index. */
  lemma ExclusiveSuccess(w: Warm, ev: Translator.Event, item: Option<Index>, env: World)
    requires FileSync.SyncReady(w.cache, item, env.sync)
    requires env.homeExists && !IsStatic(StripPrefix(ev.path))
    requires Handle(w, ev, item, env).result.Ok?
    ensures var r := Handle(w, ev, item, env);
      && r.trace == ExclusiveSteps
      && r.result == Translator.Proxy(StripPrefix(ev.path), ev, env.lib, env.server)
      && r.warm.proc == Supervisor.NoProcess
      && r.item == Some(FileSync.ToIndex(r.warm.cache))
      && LeaseLock.Release(env.releaseReplies).Released?
  {
  }

  /** A successful exclusive invocation publishes every file the upload walk
      found, with the mtime the walk found; the version each carries is the one
      `FileSync.UploadPublishesVersions` names. */
  lemma ExclusivePublishesWalk(w: Warm, ev: Translator.Event, item: Option<Index>, env: World)
    requires FileSync.SyncReady(w.cache, item, env.sync)
    requires env.homeExists && !IsStatic(StripPrefix(ev.path))
    requires Handle(w, ev, item, env).result.Ok?
    ensures FileSync.WalkPublished(env.sync.walk, Contents(Handle(w, ev, item, env).item))
  {
    var path := StripPrefix(ev.path);
    var w1 := Warm(Supervisor.Stop(w.proc, env.firstStopExits).proc, w.cache);
    assert Handle(w, ev, item, env) == Hold(w1, ev, path, item, env);
    var down := FileSync.SyncData(w1.cache, item, true, false, env.sync);
    var w2 := Warm(w1.proc, down.pass.cache);
    assert Locked(w1, ev, path, item, env) == Serve(w2, ev, path, item, env);
    var st := Supervisor.Start(w2.proc, ev.headers, ev.stage);
    var resp := Translator.Proxy(path, ev, env.lib, env.server);
    var w3 := Warm(st.proc, w2.cache);
    assert Serve(w2, ev, path, item, env) == Finish(w3, resp, item, env);
    var up := FileSync.SyncData(w3.cache, item, false, true, env.sync);
    assert Finish(w3, resp, item, env).item == up.item;
  }

  /** An error from the release replaces whatever the locked section returned or
      raised, unless the section was cut off by its deadline. */
  lemma ReleaseErrorWins(w: Warm, ev: Translator.Event, item: Option<Index>, env: World)
    requires FileSync.SyncReady(w.cache, item, env.sync)
    requires env.homeExists && !IsStatic(StripPrefix(ev.path))
    requires Supervisor.Stop(w.proc, env.firstStopExits).error.None?
    requires LeaseLock.Acquire(env.rounds).Acquired?
    requires LeaseLock.Release(env.releaseReplies).ReleaseFailed?
    requires Locked(Warm(Supervisor.NoProcess, w.cache), ev, StripPrefix(ev.path), item, env).result != Err(Deadline)
    ensures Handle(w, ev, item, env).result == Err(LeaseLock.Release(env.releaseReplies).failure)
  {
  }

  /** After a successful exclusive invocation the published index describes the
      warm cache exactly, so the next invocation's download (in the same warm
      environment, provided no other invocation has written the index since)
      fetches nothing and changes nothing. */
  lemma NextDownloadIsQuiet(w: Warm, ev: Translator.Event, item: Option<Index>, env: World,
                            gets: seq<Reply<()>>, order: seq<Path>, fetched: map<Path, int>)
    requires FileSync.SyncReady(w.cache, item, env.sync)
    requires env.homeExists && !IsStatic(StripPrefix(ev.path))
    requires Handle(w, ev, item, env).result.Ok?
    requires var r := Handle(w, ev, item, env); forall p :: p in order <==> p in Contents(r.item)
    requires Settled(gets).Some? && IsOk(gets[Settled(gets).value])
    ensures var r := Handle(w, ev, item, env);
      FileSync.DownloadPass(r.warm.cache, r.item, gets, order, fetched) == FileSync.Pass(r.warm.cache, [], None)
  {
    var r := Handle(w, ev, item, env);
    ExclusiveSuccess(w, ev, item, env);
    FileSync.PublishedIndexDownloadsNothing(r.warm.cache, gets, order, fetched);
  }
}

=== FILE: index_store.dfy ===
/** The file index kept in the files table: one item under a fixed id whose
    `Files` attribute maps each synced path to its object version and mtime.  The
    JSON text is modelled as the map it encodes. */
module IndexStore {
  import opened Common

  type Path = string
  type Version = string

  /** One index value `[versionId, mtimeNanos]`. */
  datatype Entry = Entry(version: Version, time: int)

  type Index = map<Path, Entry>

  /** The index an item encodes; a missing item reads as the empty index. */
  function Contents(item: Option<Index>): Index {
    match item
    case None => map[]
    case Some(ix) => ix
  }

  /** The consistent read of the index: sleeps and retries on throttling, raises on
      any other client error or a non-200 reply. */
  function GetFiles(item: Option<Index>, replies: seq<Reply<()>>): (r: Result<Index>)
    ensures r.Ok? <==> Settled(replies).Some? && IsOk(replies[Settled(replies).value])
    ensures r.Ok? && item.None? ==> r.value == map[]
    ensures r.Ok? && item.Some? ==> r.value == item.value
    ensures Settled(replies).None? ==> r == Err(Deadline)
    ensures Settled(replies).Some? && r.Err? ==> r.failure == Raised(replies[Settled(replies).value])
  {
    match Settled(replies)
    case None => Err(Deadline)
    case Some(k) =>
      if IsOk(replies[k]) then Ok(Contents(item)) else Err(Raised(replies[k]))
  }

  /** The index item after a write, and the write's error if it raised. */
  datatype Write = Write(item: Option<Index>, error: Option<Failure>)

  /** The unconditional write of the whole index, with the same throttling loop. */
  function PutFiles(item: Option<Index>, files: Index, replies: seq<Reply<()>>): (w: Write)
    ensures w.error.None? <==> Settled(replies).Some? && IsOk(replies[Settled(replies).value])
    ensures w.error.None? ==> w.item == Some(files)
    ensures w.error.Some? ==> w.item == item
    ensures Settled(replies).None? ==> w.error == Some(Deadline)
  {
    match Settled(replies)
    case None => Write(item, Some(Deadline))
    case Some(k) =>
      if IsOk(replies[k]) then Write(Some(files), None) else Write(item, Some(Raised(replies[k])))
  }

  /** A read that follows a successful write returns exactly what was written. */
  lemma WriteThenRead(item: Option<Index>, files: Index, puts: seq<Reply<()>>, gets: seq<Reply<()>>)
    requires PutFiles(item, files, puts).error.None?
    requires Settled(gets).Some? && IsOk(gets[Settled(gets).value])
    ensures GetFiles(PutFiles(item, files, puts).item, gets) == Ok(files)
  {
  }
}

=== FILE: lease_lock.dfy ===
/** The lease lock that serialises every invocation touching Grafana's data: one
    record under a fixed id whose `Expire` attribute bounds how long a holder that
    never releases can keep it. */
module LeaseLock {
  import opened Common

  /** The lock record as the store holds it: its `Expire` (epoch seconds), if any. */
  type LockRecord = Option<int>

  /** `math.ceil` on a real number. */
  function Ceil(x: real): (n: int)
    ensures x <= n as real < x + 1.0
  {
    -((-x).Floor)
  }

  /** One attempt of the acquire loop, as the environment presents it: the wall
      clock, the invocation's remaining time, the record the store holds when the
      attempt reaches it (other invocations may have written in between), and how
      the service treats the request (a client error it raises before evaluating
      the condition, or a reply it delivers after evaluating it). */
  datatype Round = Round(clock: real, remainingMs: int, record: LockRecord, reply: Reply<()>)

  /** `now` of an attempt: the clock rounded up. */
  function Now(r: Round): int {
    Ceil(r.clock)
  }

  /** `expire` of an attempt: `now` plus the remaining time rounded up to seconds. */
  function ExpireOf(r: Round): int {
    Now(r) + Ceil(r.remainingMs as real / 1000.0)
  }

  /** The put's condition `attribute_not_exists(Id) OR :Now > Expire`. */
  predicate Vacant(record: LockRecord, now: int) {
    record.None? || now > record.value
  }

  /** The store's side of one conditional put: the record it keeps and the reply
      the client sees.  A delivered request whose condition fails becomes a
      `ConditionalCheckFailedException` and leaves the record alone. */
  function ConditionalPut(record: LockRecord, now: int, expire: int, t: Reply<()>): (LockRecord, Reply<()>)
  {
    match t
    case Rejected(_) => (record, t)
    case Delivered(_, _) =>
      if Vacant(record, now) then (Some(expire), t)
      else (record, Rejected(ConditionFailedCode))
  }

  /** What the client loop does with the reply it sees. */
  datatype Decision = Retry | Raise(failure: Failure) | Done

  function Decide(seen: Reply<()>): Decision {
    match seen
    case Rejected(code) =>
      if code == ConditionFailedCode || code == ThrottleCode then Retry
      else Raise(ClientError(code))
    case Delivered(status, _) =>
      if status != 200 then Raise(BadStatus(status)) else Done
  }

  /** The attempt wins the lock: the store delivers a 200 and the condition holds. */
  predicate Wins(r: Round) {
    IsOk(r.reply) && Vacant(r.record, Now(r))
  }

  /** The attempt makes the loop sleep and try again: contention or throttling. */
  predicate Waits(r: Round) {
    || (r.reply.Delivered? && !Vacant(r.record, Now(r)))
    || (r.reply.Rejected? && (r.reply.code == ConditionFailedCode || r.reply.code == ThrottleCode))
  }

  /** The attempt raises: any other client error, or a non-200 reply. */
  predicate Fatal(r: Round) {
    !Wins(r) && !Waits(r)
  }

  datatype AcquireOutcome =
    | Acquired(attempts: nat, expire: int)
    | AcquireFailed(attempts: nat, failure: Failure)
    | StillWaiting

  /** The acquire loop: retries until an attempt wins or raises.  Running out of
      rounds means the invocation was still polling when its time ran out. */
  function Acquire(rounds: seq<Round>): (o: AcquireOutcome)
    ensures o.Acquired? ==>
      && 1 <= o.attempts <= |rounds|
      && Wins(rounds[o.attempts - 1])
      && o.expire == ExpireOf(rounds[o.attempts - 1])
      && forall i :: 0 <= i < o.attempts - 1 ==> Waits(rounds[i])
    ensures o.AcquireFailed? ==>
      && 1 <= o.attempts <= |rounds|
      && Fatal(rounds[o.attempts - 1])
      && o.failure == Raised(rounds[o.attempts - 1].reply)
      && forall i :: 0 <= i < o.attempts - 1 ==> Waits(rounds[i])
    ensures o.StillWaiting? ==> forall i :: 0 <= i < |rounds| ==> Waits(rounds[i])
  {
    if rounds == [] then StillWaiting
    else
      var r := rounds[0];
      var (_, seen) := ConditionalPut(r.record, Now(r), ExpireOf(r), r.reply);
      match Decide(seen)
      case Done => Acquired(1, ExpireOf(r))
      case Raise(f) => AcquireFailed(1, f)
      case Retry =>
        match Acquire(rounds[1..])
        case Acquired(n, e) => Acquired(n + 1, e)
        case AcquireFailed(n, f) => AcquireFailed(n + 1, f)
        case StillWaiting => StillWaiting
  }

  /** The lease covers at least the invocation's remaining time, and overshoots
      it by less than two seconds (one per rounding). */
  lemma LeaseCoversRemainingTime(r: Round)
    ensures r.clock + r.remainingMs as real / 1000.0 <= ExpireOf(r) as real
    ensures (ExpireOf(r) as real) < r.clock + r.remainingMs as real / 1000.0 + 2.0
  {
    var a := Ceil(r.clock);
    var b := Ceil(r.remainingMs as real / 1000.0);
    assert ExpireOf(r) == a + b;
  }

  /** The winning attempt is the one that writes: before it the record was absent
      or stale, after it the store holds the new expiry. */
  lemma AcquireWritesLease(rounds: seq<Round>)
    requires Acquire(rounds).Acquired?
    ensures var r := rounds[Acquire(rounds).attempts - 1];
      && Vacant(r.record, Now(r))
      && ConditionalPut(r.record, Now(r), ExpireOf(r), r.reply).0 == Some(Acquire(rounds).expire)
  {
  }

  /** A waiting attempt only delays the loop: the outcome is that of the rest,
      one attempt later. */
  lemma WaitDelays(rounds: seq<Round>)
    requires |rounds| > 0 && Waits(rounds[0])
    ensures Acquire(rounds) == match Acquire(rounds[1..])
      case Acquired(n, e) => Acquired(n + 1, e)
      case AcquireFailed(n, f) => AcquireFailed(n + 1, f)
      case StillWaiting => StillWaiting
  {
  }

  /** A record that is still valid at an attempt's `now` makes that attempt wait:
      while a lease is live nobody else can take it. */
  lemma {:induction false} LiveLeaseBlocks(rounds: seq<Round>, k: nat)
    requires k < |rounds|
    requires forall i :: 0 <= i <= k ==> rounds[i].record.Some? && Now(rounds[i]) <= rounds[i].record.value
    requires forall i :: 0 <= i <= k ==> rounds[i].reply.Delivered?
    ensures Acquire(rounds).StillWaiting? || Acquire(rounds).attempts > k + 1
  {
    assert rounds[0].record.Some? && Now(rounds[0]) <= rounds[0].record.value;
    assert rounds[0].reply.Delivered?;
    WaitDelays(rounds);
    if k > 0 {
      LiveLeaseBlocks(rounds[1..], k - 1);
    }
  }

  /** A record whose expiry has passed is taken by the next contender whose put is
      delivered, whatever became of the previous holder. */
  lemma ExpiredLeaseIsAcquirable(rounds: seq<Round>)
    requires |rounds| > 0 && rounds[0].reply == Delivered(200, ())
    requires rounds[0].record.Some? && Now(rounds[0]) > rounds[0].record.value
    ensures Acquire(rounds) == Acquired(1, ExpireOf(rounds[0]))
  {
  }

  /** Contention and throttling only delay: after k waiting attempts the winning
      one is attempt k + 1. */
  lemma {:induction false} AcquireAfterWaits(rounds: seq<Round>, k: nat)
    requires k < |rounds|
    requires forall i :: 0 <= i < k ==> Waits(rounds[i])
    requires Wins(rounds[k])
    ensures Acquire(rounds) == Acquired(k + 1, ExpireOf(rounds[k]))
  {
    if k > 0 {
      WaitDelays(rounds);
      AcquireAfterWaits(rounds[1..], k - 1);
    }
  }

  datatype ReleaseOutcome =
    | Released(attempts: nat)
    | ReleaseFailed(attempts: nat, failure: Failure)
    | ReleaseStalled

  /** A delete reply that spends one retry of the release budget. */
  predicate Refused(r: Reply<()>) {
    r.Delivered? && r.status != 200
  }

  /** Number of replies that spent a retry. */
  function RefusedCount(rs: seq<Reply<()>>): (n: nat)
    ensures n <= |rs|
  {
    if rs == [] then 0 else (if Refused(rs[0]) then 1 else 0) + RefusedCount(rs[1..])
  }

  /** Replies the release loop retries with `budget` retries to spend: throttles
      and non-200 replies only, and no more refusals than the budget. */
  predicate Tolerated(rs: seq<Reply<()>>, budget: nat) {
    && (forall i :: 0 <= i < |rs| ==> IsThrottle(rs[i]) || Refused(rs[i]))
    && RefusedCount(rs) <= budget
  }

  /** Retried replies, read one at a time: a throttle is free and a refusal costs
      one retry. */
  lemma ToleratedCons(rs: seq<Reply<()>>, n: nat, budget: nat)
    requires n < |rs|
    requires IsThrottle(rs[0]) || (Refused(rs[0]) && budget > 0)
    requires Tolerated(rs[1..][..n], if IsThrottle(rs[0]) then budget else budget - 1)
    ensures Tolerated(rs[..n + 1], budget)
    ensures RefusedCount(rs[..n + 1]) == (if Refused(rs[0]) then 1 else 0) + RefusedCount(rs[1..][..n])
  {
    var whole, tail := rs[..n + 1], rs[1..][..n];
    assert whole[0] == rs[0] && whole[1..] == tail;
    forall i | 0 <= i < |whole| ensures IsThrottle(whole[i]) || Refused(whole[i]) {
      if i > 0 {
        assert whole[i] == tail[i - 1];
      }
    }
  }

  /** The result of the loop one reply later: one more attempt was made. */
  function Later(o: ReleaseOutcome): ReleaseOutcome {
    match o
    case Released(n) => Released(n + 1)
    case ReleaseFailed(n, f) => ReleaseFailed(n + 1, f)
    case ReleaseStalled => ReleaseStalled
  }

  /** The release loop with `budget` retries left.  The delete has no condition:
      the outcome depends only on the replies, never on whose record is deleted. */
  function ReleaseFrom(rs: seq<Reply<()>>, budget: nat): (o: ReleaseOutcome)
    ensures o.Released? ==>
      && 1 <= o.attempts <= |rs|
      && IsOk(rs[o.attempts - 1])
      && Tolerated(rs[..o.attempts - 1], budget)
    ensures o.ReleaseFailed? ==>
      && 1 <= o.attempts <= |rs|
      && Tolerated(rs[..o.attempts - 1], budget)
      && o.failure == Raised(rs[o.attempts - 1])
      && (|| (rs[o.attempts - 1].Rejected? && !IsThrottle(rs[o.attempts - 1]))
          || (Refused(rs[o.attempts - 1]) && RefusedCount(rs[..o.attempts - 1]) == budget))
    ensures o.ReleaseStalled? ==> Tolerated(rs, budget)
  {
    if rs == [] then ReleaseStalled
    else if IsThrottle(rs[0]) || (Refused(rs[0]) && budget > 0) then
      var left := if IsThrottle(rs[0]) then budget else budget - 1;
      var rest := ReleaseFrom(rs[1..], left);
      if rest.ReleaseStalled? then
        assert rs[..|rs|] == rs && rs[1..][..|rs| - 1] == rs[1..];
        ToleratedCons(rs, |rs| - 1, budget);
        ReleaseStalled
      else
        ToleratedCons(rs, rest.attempts - 1, budget);
        Later(rest)
    else if IsOk(rs[0]) then Released(1)
    else ReleaseFailed(1, Raised(rs[0]))
  }

  /** Number of retries the release loop starts with. */
  const ReleaseRetries: nat := 5

  function Release(rs: seq<Reply<()>>): ReleaseOutcome {
    ReleaseFrom(rs, ReleaseRetries)
  }

  /** The lock record after the release loop.  The delete names only the lock's
      id, so a delivered 200 removes whatever record is there, even one another
      invocation wrote after this one's lease expired.  Any other outcome is taken
      to leave the record as it was. */
  function AfterRelease(record: LockRecord, rs: seq<Reply<()>>): LockRecord {
    if Release(rs).Released? then None else record
  }

  /** A released lock is free at once: the next attempt whose put is delivered
      with 200 wins, whatever the clock says and whoever held the record. */
  lemma ReleasedLockIsFree(record: LockRecord, rs: seq<Reply<()>>, rounds: seq<Round>)
    requires Release(rs).Released?
    requires |rounds| > 0 && rounds[0].record == AfterRelease(record, rs) && IsOk(rounds[0].reply)
    ensures Acquire(rounds) == Acquired(1, ExpireOf(rounds[0]))
  {
  }

  /** A release that did not complete leaves the record in place, so a live lease
      keeps blocking until it expires. */
  lemma UnreleasedLeaseBlocks(record: LockRecord, rs: seq<Reply<()>>, rounds: seq<Round>)
    requires !Release(rs).Released?
    requires |rounds| > 0 && rounds[0].record == AfterRelease(record, rs) && rounds[0].reply.Delivered?
    requires record.Some? && Now(rounds[0]) <= record.value
    ensures Acquire(rounds).StillWaiting? || Acquire(rounds).attempts > 1
  {
    WaitDelays(rounds);
  }

  /** Each non-200 reply spends one retry: with `budget` retries left, the reply
      after `budget` refusals raises. */
  lemma {:induction false} RefusalsSpendBudget(rs: seq<Reply<()>>, budget: nat)
    requires |rs| > budget
    requires forall i :: 0 <= i <= budget ==> rs[i].Delivered? && rs[i].status != 200
    ensures ReleaseFrom(rs, budget) == ReleaseFailed(budget + 1, BadStatus(rs[budget].status))
  {
    assert rs[0].Delivered? && rs[0].status != 200;
    if budget > 0 {
      RefusalsSpendBudget(rs[1..], budget - 1);
    }
  }

  /** Five non-200 replies are retried; the sixth raises. */
  lemma SixthRefusalRaises(rs: seq<Reply<()>>)
    requires |rs| >= 6
    requires forall i :: 0 <= i < 6 ==> rs[i].Delivered? && rs[i].status != 200
    ensures Release(rs) == ReleaseFailed(6, BadStatus(rs[5].status))
  {
    RefusalsSpendBudget(rs, ReleaseRetries);
  }

  /** Throttling never spends the retry budget: however long it lasts, the first
      200 releases the lock, whatever budget is left. */
  lemma {:induction false} ThrottlingIsFree(rs: seq<Reply<()>>, budget: nat, k: nat)
    requires k < |rs|
    requires forall i :: 0 <= i < k ==> IsThrottle(rs[i])
    requires IsOk(rs[k])
    ensures ReleaseFrom(rs, budget) == Released(k + 1)
  {
    if k > 0 {
      assert IsThrottle(rs[0]);
      ThrottlingIsFree(rs[1..], budget, k - 1);
    }
  }
}

=== FILE: supervisor.dfy ===
/** The supervisor of the local Grafana server process.  The environment keeps at
    most one process handle; whether the process is still running is what `poll()`
    reports at the moment it is asked. */
module Supervisor {
  import opened Common

  /** The handle as `poll()` sees it: none, a process still running (`poll()`
      returns None), or one that has exited with a code. */
  datatype Proc = NoProcess | Running | Exited(code: int)

  /** `GRAFANA_PROCESS and not GRAFANA_PROCESS.poll()`: exit code 0 is falsy, so a
      process that exited cleanly is taken for a running one. */
  predicate LooksAlive(p: Proc) {
    p.Running? || p == Exited(0)
  }

  const GrafanaData: string := "/tmp/grafana/data"
  const GrafanaPlugins: string := "/tmp/grafana/plugins"

  /** The lines of the rendered configuration; the host becomes the server's domain
      and the stage the first segment of its root URL. */
  function ConfigLines(host: string, stage: string): seq<string> {
    [ "[server]",
      "domain = " + host,
      "root_url = %(protocol)s://%(domain)s:/" + stage + "/grafana",
      "",
      "[paths]",
      "data = " + GrafanaData,
      "logs = /tmp/grafana/logs",
      "plugins = " + GrafanaPlugins,
      "" ]
  }

  /** Lines joined with newlines. */
  function Join(lines: seq<string>): string
    requires |lines| > 0
  {
    if |lines| == 1 then lines[0] else lines[0] + "\n" + Join(lines[1..])
  }

  /** The configuration text written before each start. */
  function RenderConfig(host: string, stage: string): string {
    Join(ConfigLines(host, stage))
  }

  /** `str.split('\n')`: the newline-separated pieces of a text. */
  function Split(s: string): (ls: seq<string>)
    ensures |ls| > 0
  {
    if s == [] then [""]
    else if s[0] == '\n' then [""] + Split(s[1..])
    else
      var t := Split(s[1..]);
      [[s[0]] + t[0]] + t[1..]
  }

  lemma {:induction false} SplitLine(a: string, rest: string)
    requires '\n' !in a
    ensures Split(a + "\n" + rest) == [a] + Split(rest)
  {
    var s := a + "\n" + rest;
    if a == [] {
      assert s == "\n" + rest;
      assert s[1..] == rest;
    } else {
      assert s[0] == a[0];
      assert s[1..] == a[1..] + "\n" + rest;
      SplitLine(a[1..], rest);
      var t := Split(s[1..]);
      assert t == [a[1..]] + Split(rest);
      assert [s[0]] + t[0] == a;
      assert t[1..] == Split(rest);
    }
  }

  lemma {:induction false} SplitSingle(a: string)
    requires '\n' !in a
    ensures Split(a) == [a]
  {
    if a != [] {
      assert a[0] != '\n';
      SplitSingle(a[1..]);
      assert [a[0]] + a[1..] == a;
    }
  }

  /** Splitting undoes joining when no line holds a newline. */
  lemma {:induction false} SplitJoin(lines: seq<string>)
    requires |lines| > 0
    requires forall i :: 0 <= i < |lines| ==> '\n' !in lines[i]
    ensures Split(Join(lines)) == lines
  {
    if |lines| == 1 {
      SplitSingle(lines[0]);
    } else {
      SplitLine(lines[0], Join(lines[1..]));
      SplitJoin(lines[1..]);
    }
  }

  predicate EndsWith(s: string, suffix: string) {
    |suffix| <= |s| && s[|s| - |suffix|..] == suffix
  }

  /** No line of the configuration holds a newline of its own. */
  lemma ConfigLinesAreSingle(host: string, stage: string)
    requires '\n' !in host && '\n' !in stage
    ensures forall i :: 0 <= i < 9 ==> '\n' !in ConfigLines(host, stage)[i]
  {
    var lines := ConfigLines(host, stage);
    forall i | 0 <= i < 9 ensures '\n' !in lines[i] {
      if i == 1 {
        NoNewlineJoined("domain = ", host);
      } else if i == 2 {
        NoNewlineJoined("root_url = %(protocol)s://%(domain)s:/", stage);
        NoNewlineJoined("root_url = %(protocol)s://%(domain)s:/" + stage, "/grafana");
      } else if i == 5 {
        NoNewlineJoined("data = ", GrafanaData);
      } else if i == 7 {
        NoNewlineJoined("plugins = ", GrafanaPlugins);
      }
    }
  }

  lemma NoNewlineJoined(a: string, b: string)
    requires '\n' !in a && '\n' !in b
    ensures '\n' !in a + b
  {
  }

  /** The rendered configuration reads back as its lines. */
  lemma ConfigSplitsIntoLines(host: string, stage: string)
    requires '\n' !in host && '\n' !in stage
    ensures Split(RenderConfig(host, stage)) == ConfigLines(host, stage)
  {
    ConfigLinesAreSingle(host, stage);
    SplitJoin(ConfigLines(host, stage));
  }

  /** Read back line by line, the configuration names the request's host as the
      domain and roots its URL at `/{stage}/grafana`. */
  lemma ConfigNamesHostAndStage(host: string, stage: string)
    requires '\n' !in host && '\n' !in stage
    ensures var ls := Split(RenderConfig(host, stage));
      && |ls| == 9
      && ls[0] == "[server]"
      && ls[1] == "domain = " + host
      && StartsWith(ls[2], "root_url = ")
      && EndsWith(ls[2], "/" + stage + "/grafana")
      && ls[5] == "data = " + GrafanaData
      && ls[7] == "plugins = " + GrafanaPlugins
  {
    ConfigSplitsIntoLines(host, stage);
    var line := "root_url = %(protocol)s://%(domain)s:/" + stage + "/grafana";
    assert line == "root_url = %(protocol)s://%(domain)s:" + ("/" + stage + "/grafana");
  }

  /** The state after `start_grafana`: the handle, the configuration written (if
      any), and the error raised (if any). */
  datatype Started = Started(proc: Proc, config: Option<string>, error: Option<Failure>)

  /** `start_grafana`: nothing to do when the handle looks alive; otherwise render
      the configuration from the `Host` header and the stage, and launch.  The
      configuration file is opened for writing before the template is filled in,
      so a missing `Host` header leaves it truncated to nothing. */
  function Start(p: Proc, headers: map<string, string>, stage: string): (s: Started)
    ensures LooksAlive(p) ==> s == Started(p, None, None)
    ensures !LooksAlive(p) && "Host" in headers ==>
      s.proc == Running && s.error.None? && s.config == Some(RenderConfig(headers["Host"], stage))
    ensures !LooksAlive(p) && "Host" !in headers ==>
      s == Started(p, Some(""), Some(MissingHeader("Host")))
  {
    if LooksAlive(p) then Started(p, None, None)
    else if "Host" !in headers then Started(p, Some(""), Some(MissingHeader("Host")))
    else Started(Running, Some(RenderConfig(headers["Host"], stage)), None)
  }

  /** The state after `stop_grafana`: the handle and the error raised (if any). */
  datatype Stopped = Stopped(proc: Proc, error: Option<Failure>)

  /** `stop_grafana`: terminate and wait up to five seconds.  A process that has
      already exited is not signalled and its wait returns at once.  For a running
      one, `exitsInTime` says whether the wait returned; a timeout propagates and
      the handle is kept. */
  function Stop(p: Proc, exitsInTime: bool): (s: Stopped)
    ensures !p.Running? ==> s == Stopped(NoProcess, None)
    ensures p.Running? && exitsInTime ==> s == Stopped(NoProcess, None)
    ensures p.Running? && !exitsInTime ==> s == Stopped(p, Some(StopTimeout))
    ensures s.error.None? <==> s.proc == NoProcess
  {
    if p.NoProcess? || p.Exited? || exitsInTime then Stopped(NoProcess, None)
    else Stopped(p, Some(StopTimeout))
  }

  /** Starting twice starts once: a second start right after a successful one
      changes nothing and writes no configuration. */
  lemma StartIsIdempotent(p: Proc, headers: map<string, string>, stage: string)
    requires Start(p, headers, stage).error.None?
    ensures var s := Start(p, headers, stage).proc; Start(s, headers, stage) == Started(s, None, None)
  {
  }

  /** After a successful stop, the next start always writes a fresh configuration
      for the current request, which is why the locked path stops first. */
  lemma StopThenStartRenders(p: Proc, exitsInTime: bool, headers: map<string, string>, stage: string)
    requires Stop(p, exitsInTime).error.None?
    requires "Host" in headers
    ensures Start(Stop(p, exitsInTime).proc, headers, stage).config == Some(RenderConfig(headers["Host"], stage))
  {
  }

  /** Only a running process can make the stop time out: a handle whose process
      has exited, with any code, is always cleared. */
  lemma OnlyRunningStopTimesOut(p: Proc, exitsInTime: bool)
    ensures Stop(p, exitsInTime).error.Some? <==> p.Running? && !exitsInTime
    ensures p.Exited? ==> Stop(p, exitsInTime) == Stopped(NoProcess, None)
  {
  }

  /** A start that raises for want of a `Host` header leaves the configuration
      file empty and the handle as it was. */
  lemma MissingHostTruncatesConfig(p: Proc, headers: map<string, string>, stage: string)
    requires !LooksAlive(p) && "Host" !in headers
    ensures Start(p, headers, stage).config == Some("")
    ensures Start(p, headers, stage).proc == p
    ensures Start(p, headers, stage).error == Some(MissingHeader("Host"))
  {
  }

  /** A process that exited with code 0 is not restarted; after any other exit
      code the start rewrites the configuration file, and relaunches when the
      `Host` header is there. */
  lemma CleanExitLooksRunning(headers: map<string, string>, stage: string)
    ensures Start(Exited(0), headers, stage) == Started(Exited(0), None, None)
    ensures forall c :: c != 0 ==> Start(Exited(c), headers, stage).config.Some?
    ensures forall c :: c != 0 && "Host" in headers ==> Start(Exited(c), headers, stage).proc == Running
  {
  }
}

=== FILE: translator.dfy ===
/** The bridge between the gateway's proxy event and the local HTTP server: the
    event becomes a request to the loopback address, and the server's response
    becomes a gateway response whose single-valued header map still carries every
    value of a repeated header. */
module Translator {
  import opened Common

  newtype Byte = x: int | 0 <= x < 256
  type Bytes = seq<Byte>

  /** The fields of the proxy event the translator reads. */
  datatype Event = Event(
    httpMethod: string, path: string, headers: map<string, string>,
    body: string, isBase64Encoded: bool, stage: string)

  /** The request sent to the local server. */
  datatype Request = Request(verb: string, url: string, headers: map<string, string>, body: Option<Bytes>)

  /** One header line of the local server's response. */
  datatype Field = Field(name: string, value: string)

  /** The local server's response: status, header lines in order, raw body. */
  datatype Upstream = Upstream(status: int, fields: seq<Field>, data: Bytes)

  /** The response handed back to the gateway. */
  datatype Response = Response(body: string, headers: map<string, string>, statusCode: int, isBase64Encoded: bool)

  /** Library code the translator calls but does not define: base64 decoding
      (None when the padding is wrong) and encoding, the encoding lookup on the
      response headers (a declared charset, or a default for any text media type
      that declares none), and decoding bytes in a named encoding (None when they
      do not decode or the encoding is unknown). */
  datatype Library = Library(
    b64decode: string -> Option<Bytes>,
    b64encode: Bytes -> string,
    encodingOf: seq<Field> -> Option<string>,
    decode: (Bytes, string) -> Option<string>)

  const LocalOrigin: string := "http://127.0.0.1:3000"

  /** The request for a stripped path: the URL is the loopback origin followed by
      exactly that path, and the body is sent only for a base64-flagged event. */
  function BuildRequest(path: string, ev: Event, lib: Library): (r: Result<Request>)
    ensures r.Ok? ==> StartsWith(r.value.url, LocalOrigin) && r.value.url[|LocalOrigin|..] == path
    ensures r.Ok? ==> r.value.verb == ev.httpMethod && r.value.headers == ev.headers
    ensures r.Ok? ==> (r.value.body.Some? <==> ev.isBase64Encoded)
    ensures r.Ok? && ev.isBase64Encoded ==> r.value.body == lib.b64decode(ev.body)
    ensures r.Err? <==> ev.isBase64Encoded && lib.b64decode(ev.body).None?
    ensures r.Err? ==> r.failure == BadBase64
  {
    var body := if ev.isBase64Encoded then lib.b64decode(ev.body) else None;
    if ev.isBase64Encoded && body.None? then Err(BadBase64)
    else
      var url := LocalOrigin + path;
      assert url[..|LocalOrigin|] == LocalOrigin && url[|LocalOrigin|..] == path;
      Ok(Request(ev.httpMethod, url, ev.headers, body))
  }

  // ---- ASCII case -------------------------------------------------------------

  predicate IsLetter(c: char) {
    ('a' <= c <= 'z') || ('A' <= c <= 'Z')
  }

  function LowerChar(c: char): char {
    if 'A' <= c <= 'Z' then (c as int + 32) as char else c
  }

  function UpperChar(c: char): char {
    if 'a' <= c <= 'z' then (c as int - 32) as char else c
  }

  function Lower(s: string): (r: string)
    ensures |r| == |s| && forall i :: 0 <= i < |s| ==> r[i] == LowerChar(s[i])
  {
    seq(|s|, i requires 0 <= i < |s| => LowerChar(s[i]))
  }

  lemma LowerIdempotent(s: string)
    ensures Lower(Lower(s)) == Lower(s)
  {
  }

  lemma LowerAppend(c: char, s: string)
    ensures Lower([c] + s) == [LowerChar(c)] + Lower(s)
  {
  }

  // ---- case variants ------------------------------------------------------------

  function Pow2(n: nat): (p: nat)
    ensures p >= 1
  {
    if n == 0 then 1 else 2 * Pow2(n - 1)
  }

  function Prefixed(c: char, vs: seq<string>): (r: seq<string>)
    ensures |r| == |vs| && forall i :: 0 <= i < |vs| ==> r[i] == [c] + vs[i]
  {
    seq(|vs|, i requires 0 <= i < |vs| => [c] + vs[i])
  }

  /** The case variants of a header name in the order
      `itertools.product(*zip(name.lower(), name.upper()))` yields them: the first
      character varies slowest, lower case before upper case.  Every variant is
      the name up to case. */
  function Variants(name: string): (vs: seq<string>)
    ensures |vs| == Pow2(|name|)
    ensures forall i :: 0 <= i < |vs| ==> |vs[i]| == |name| && Lower(vs[i]) == Lower(name)
    decreases |name|
  {
    if name == [] then [""]
    else
      var rest := Variants(name[1..]);
      var vs := Prefixed(LowerChar(name[0]), rest) + Prefixed(UpperChar(name[0]), rest);
      assert name == [name[0]] + name[1..];
      LowerAppend(name[0], name[1..]);
      forall i | 0 <= i < |vs| ensures |vs[i]| == |name| && Lower(vs[i]) == Lower(name) {
        if i < |rest| {
          LowerAppend(LowerChar(name[0]), rest[i]);
        } else {
          LowerAppend(UpperChar(name[0]), rest[i - |rest|]);
        }
      }
      vs
  }

  /** The variants of a name: those of its tail behind the lower-case first
      character, then behind the upper-case one. */
  lemma VariantsHalves(name: string)
    requires name != []
    ensures var rest := Variants(name[1..]); var vs := Variants(name);
      && |vs| == 2 * |rest|
      && (forall i :: 0 <= i < |rest| ==> vs[i] == [LowerChar(name[0])] + rest[i])
      && (forall i :: 0 <= i < |rest| ==> vs[i + |rest|] == [UpperChar(name[0])] + rest[i])
  {
  }

  /** The first variant is the all-lower-case name. */
  lemma {:induction false} FirstVariantIsLower(name: string)
    ensures Variants(name)[0] == Lower(name)
  {
    if name != [] {
      FirstVariantIsLower(name[1..]);
      LowerAppend(name[0], name[1..]);
      assert name == [name[0]] + name[1..];
    }
  }

  /** The second variant upper-cases only the last character. */
  lemma {:induction false} SecondVariant(name: string)
    requires |name| >= 1
    ensures |Variants(name)| >= 2
    ensures Variants(name)[1] == Lower(name[..|name| - 1]) + [UpperChar(name[|name| - 1])]
  {
    if |name| == 1 {
      SecondVariantSingle(name);
    } else {
      SecondVariant(name[1..]);
      SecondVariantCons(name);
    }
  }

  /** A one-character name's second variant is its upper case. */
  lemma SecondVariantSingle(name: string)
    requires |name| == 1
    ensures |Variants(name)| >= 2
    ensures Variants(name)[1] == Lower(name[..|name| - 1]) + [UpperChar(name[|name| - 1])]
  {
    assert name[1..] == [] && name[..0] == [];
    VariantsHalves(name);
    assert Variants(name[1..]) == [""];
  }

  /** The second variant of a longer name is that of its tail behind the
      lower-cased first character. */
  lemma SecondVariantCons(name: string)
    requires |name| >= 2
    requires |Variants(name[1..])| >= 2
    requires Variants(name[1..])[1] == Lower(name[1..][..|name[1..]| - 1]) + [UpperChar(name[1..][|name[1..]| - 1])]
    ensures |Variants(name)| >= 2
    ensures Variants(name)[1] == Lower(name[..|name| - 1]) + [UpperChar(name[|name| - 1])]
  {
    var init, last := name[1..][..|name[1..]| - 1], name[1..][|name[1..]| - 1];
    SecondVariantStep(name, init, last);
    LowerInit(name);
    assert last == name[|name| - 1];
  }

  /** The second variant of a name is that of its tail behind the lower-cased
      first character. */
  lemma SecondVariantStep(name: string, init: string, last: char)
    requires |name| >= 1
    requires |Variants(name[1..])| >= 2 && Variants(name[1..])[1] == Lower(init) + [UpperChar(last)]
    ensures |Variants(name)| >= 2
    ensures Variants(name)[1] == [LowerChar(name[0])] + (Lower(init) + [UpperChar(last)])
  {
    VariantsHalves(name);
  }

  /** Lower-casing all but the last character, the first one apart. */
  lemma LowerInit(name: string)
    requires |name| >= 2
    ensures Lower(name[..|name| - 1]) == [LowerChar(name[0])] + Lower(name[1..][..|name[1..]| - 1])
  {
    assert name[..|name| - 1] == [name[0]] + name[1..][..|name[1..]| - 1];
    LowerAppend(name[0], name[1..][..|name[1..]| - 1]);
  }

  /** Two values of a name that ends in a letter get two distinct keys. */
  lemma EndingInLetterSeparatesTwo(name: string)
    requires |name| >= 1 && IsLetter(name[|name| - 1])
    ensures |Variants(name)| >= 2 && Variants(name)[0] != Variants(name)[1]
  {
    FirstVariantIsLower(name);
    SecondVariant(name);
    var v0 := Variants(name)[0];
    var v1 := Variants(name)[1];
    assert v0[|name| - 1] == LowerChar(name[|name| - 1]);
    assert v1[|name| - 1] == UpperChar(name[|name| - 1]);
  }

  predicate Distinct(xs: seq<string>) {
    forall i, j :: 0 <= i < j < |xs| ==> xs[i] != xs[j]
  }

  /** Prefixing the same character keeps two strings apart. */
  lemma SamePrefixApart(c: char, x: string, y: string)
    requires x != y
    ensures [c] + x != [c] + y
  {
    assert ([c] + x)[1..] == x && ([c] + y)[1..] == y;
  }

  /** Prefixing different characters sets two strings apart. */
  lemma OtherPrefixApart(a: char, b: char, x: string, y: string)
    requires a != b
    ensures [a] + x != [b] + y
  {
    assert ([a] + x)[0] == a && ([b] + y)[0] == b;
  }

  /** A name made only of letters has as many distinct variants as there are
      case combinations. */
  lemma {:induction false} LettersGiveDistinctVariants(name: string)
    requires forall i :: 0 <= i < |name| ==> IsLetter(name[i])
    ensures Distinct(Variants(name))
  {
    if name != [] {
      var rest := Variants(name[1..]);
      LettersGiveDistinctVariants(name[1..]);
      var vs := Variants(name);
      VariantsHalves(name);
      var lo, up := LowerChar(name[0]), UpperChar(name[0]);
      assert IsLetter(name[0]) && lo != up;
      var h := |rest|;
      forall i, j | 0 <= i < j < |vs| ensures vs[i] != vs[j] {
        if j < h {
          SamePrefixApart(lo, rest[i], rest[j]);
        } else if i >= h {
          assert vs[i] == [up] + rest[i - h];
          SamePrefixApart(up, rest[i - h], rest[j - h]);
        } else {
          OtherPrefixApart(lo, up, rest[i], rest[j - h]);
        }
      }
    }
  }

  // ---- the response header map ------------------------------------------------------

  /** `Content-Length` and `Transfer-Encoding` are recomputed by the gateway. */
  predicate HopByHop(name: string) {
    Lower(name) == "content-length" || Lower(name) == "transfer-encoding"
  }

  /** The header lines left after discarding the hop-by-hop ones. */
  function Kept(fields: seq<Field>): (r: seq<Field>)
    ensures forall f :: f in r <==> f in fields && !HopByHop(f.name)
  {
    if fields == [] then []
    else (if HopByHop(fields[0].name) then [] else [fields[0]]) + Kept(fields[1..])
  }

  /** `getlist`: the values of every line whose name matches, in order. */
  function Values(fields: seq<Field>, lname: string): seq<string>
  {
    if fields == [] then []
    else (if Lower(fields[0].name) == lname then [fields[0].value] else []) + Values(fields[1..], lname)
  }

  /** Reading one line in front of the others. */
  lemma ValuesCons(f: Field, rest: seq<Field>, lname: string)
    ensures Values([f] + rest, lname) == (if Lower(f.name) == lname then [f.value] else []) + Values(rest, lname)
  {
    assert ([f] + rest)[0] == f && ([f] + rest)[1..] == rest;
  }

  /** Discarding the hop-by-hop lines keeps every other header's values, all of
      them and in the server's order. */
  lemma {:induction false} KeptValues(fields: seq<Field>, n: string)
    requires Lower(n) == n && !HopByHop(n)
    ensures Values(Kept(fields), n) == Values(fields, n)
  {
    if fields != [] {
      var f, rest := fields[0], fields[1..];
      KeptValues(rest, n);
      if HopByHop(f.name) {
        assert Lower(f.name) != n;
        assert Kept(fields) == [] + Kept(rest) == Kept(rest);
        assert Values(fields, n) == [] + Values(rest, n) == Values(rest, n);
      } else {
        ValuesCons(f, Kept(rest), n);
      }
    }
  }

  function Without(xs: seq<string>, x: string): (r: seq<string>)
    ensures forall y :: y in r <==> y in xs && y != x
    ensures Distinct(xs) ==> Distinct(r)
  {
    if xs == [] then []
    else
      var t := Without(xs[1..], x);
      if xs[0] == x then t
      else
        assert forall k :: 0 <= k < |t| ==> t[k] in xs[1..];
        [xs[0]] + t
  }

  /** Iterating the header dict: each lower-cased name once, in order of first
      appearance. */
  function Names(fields: seq<Field>): (ns: seq<string>)
    ensures Distinct(ns)
    ensures forall n :: n in ns ==> Lower(n) == n
    ensures forall n :: n in ns ==> exists i :: 0 <= i < |fields| && Lower(fields[i].name) == n
    ensures forall i :: 0 <= i < |fields| ==> Lower(fields[i].name) in ns
  {
    if fields == [] then []
    else
      var n := Lower(fields[0].name);
      var t := Without(Names(fields[1..]), n);
      assert n !in t;
      LowerIdempotent(fields[0].name);
      [n] + t
  }

  function Min(a: nat, b: nat): nat {
    if a < b then a else b
  }

  /** `for key, value in zip(keys, values): headers[key] = value`. */
  function Assign(m: map<string, string>, keys: seq<string>, vals: seq<string>): (r: map<string, string>)
    ensures forall k :: k in r <==> k in m || k in keys[..Min(|keys|, |vals|)]
    ensures forall k :: k in m && k !in keys[..Min(|keys|, |vals|)] ==> r[k] == m[k]
    ensures forall k :: k in keys[..Min(|keys|, |vals|)] ==> r[k] in vals
    ensures Distinct(keys[..Min(|keys|, |vals|)]) ==>
      forall i :: 0 <= i < Min(|keys|, |vals|) ==> r[keys[i]] == vals[i]
    decreases |vals|
  {
    if keys == [] || vals == [] then m
    else
      var r := Assign(m[keys[0] := vals[0]], keys[1..], vals[1..]);
      AssignStep(m, keys, vals, r);
      AssignStepDistinct(m, keys, vals, r);
      r
  }

  /** The first pair written, then the rest: the keys the rest's assignment
      writes, and the values it writes, complete the whole one's. */
  lemma AssignStep(m: map<string, string>, keys: seq<string>, vals: seq<string>, r: map<string, string>)
    requires keys != [] && vals != []
    requires var m', n' := m[keys[0] := vals[0]], Min(|keys[1..]|, |vals[1..]|);
      && (forall k :: k in r <==> k in m' || k in keys[1..][..n'])
      && (forall k :: k in m' && k !in keys[1..][..n'] ==> r[k] == m'[k])
      && (forall k :: k in keys[1..][..n'] ==> r[k] in vals[1..])
    ensures forall k :: k in r <==> k in m || k in keys[..Min(|keys|, |vals|)]
    ensures forall k :: k in m && k !in keys[..Min(|keys|, |vals|)] ==> r[k] == m[k]
    ensures forall k :: k in keys[..Min(|keys|, |vals|)] ==> r[k] in vals
  {
    var n := Min(|keys|, |vals|);
    assert keys[..n] == [keys[0]] + keys[1..][..n - 1];
    assert forall v :: v in vals[1..] ==> v in vals;
  }

  /** With distinct keys, each key keeps the value paired with it. */
  lemma AssignStepDistinct(m: map<string, string>, keys: seq<string>, vals: seq<string>, r: map<string, string>)
    requires keys != [] && vals != []
    requires var m', n' := m[keys[0] := vals[0]], Min(|keys[1..]|, |vals[1..]|);
      && (forall k :: k in r <==> k in m' || k in keys[1..][..n'])
      && (forall k :: k in m' && k !in keys[1..][..n'] ==> r[k] == m'[k])
      && (Distinct(keys[1..][..n']) ==> forall i :: 0 <= i < n' ==> r[keys[1..][i]] == vals[1..][i])
    ensures Distinct(keys[..Min(|keys|, |vals|)]) ==>
      forall i :: 0 <= i < Min(|keys|, |vals|) ==> r[keys[i]] == vals[i]
  {
    var n := Min(|keys|, |vals|);
    DistinctTail(keys, n);
    if Distinct(keys[..n]) {
      forall i | 0 <= i < n ensures r[keys[i]] == vals[i] {
        if i == 0 {
          assert keys[0] !in keys[1..][..n - 1];
        } else {
          assert keys[i] == keys[1..][i - 1];
        }
      }
    }
  }

  lemma DistinctTail(keys: seq<string>, n: nat)
    requires 1 <= n <= |keys|
    ensures Distinct(keys[..n]) ==> keys[0] !in keys[1..][..n - 1] && Distinct(keys[1..][..n - 1])
  {
    var head := keys[..n];
    var tail := keys[1..][..n - 1];
    assert forall k :: 0 <= k < n - 1 ==> tail[k] == head[k + 1];
  }

  /** How many values of a name survive the zip with its variants. */
  function Limit(fields: seq<Field>, n: string): nat {
    Min(Pow2(|n|), |Values(fields, n)|)
  }

  /** The loop over the header names, each writing its values under its variants. */
  function EncodeNames(m: map<string, string>, names: seq<string>, fields: seq<Field>): map<string, string>
    decreases |names|
  {
    if names == [] then m
    else EncodeNames(Assign(m, Variants(names[0]), Values(fields, names[0])), names[1..], fields)
  }

  /** The gateway header map built from the server's header lines. */
  function EncodeHeaders(fields: seq<Field>): map<string, string> {
    var kept := Kept(fields);
    EncodeNames(map[], Names(kept), kept)
  }

  /** The names still to be written are distinct, lower-case, and own no key of
      the map so far. */
  predicate Fresh(m: map<string, string>, names: seq<string>) {
    && Distinct(names)
    && (forall i :: 0 <= i < |names| ==> Lower(names[i]) == names[i])
    && (forall k :: k in m ==> Lower(k) !in names)
  }

  /** Writing the first name's values keeps the remaining names fresh, since every
      key written is that name up to case. */
  lemma FreshStep(m: map<string, string>, names: seq<string>, fields: seq<Field>)
    requires Fresh(m, names) && names != []
    ensures Fresh(Assign(m, Variants(names[0]), Values(fields, names[0])), names[1..])
  {
    var n := names[0];
    var vs := Variants(n);
    var vals := Values(fields, n);
    var m' := Assign(m, vs, vals);
    assert forall k :: k in vs ==> Lower(k) == Lower(n);
    assert n !in names[1..];
    forall k | k in m' ensures Lower(k) !in names[1..] {
      if k !in m {
        assert k in vs[..Min(|vs|, |vals|)];
      }
    }
  }

  /** A key the map did not hold before is written as it would be into an empty map. */
  lemma {:induction false} AssignFresh(m: map<string, string>, keys: seq<string>, vals: seq<string>, k: string)
    requires k !in m
    ensures k in Assign(m, keys, vals) <==> k in Assign(map[], keys, vals)
    ensures k in Assign(m, keys, vals) ==> Assign(m, keys, vals)[k] == Assign(map[], keys, vals)[k]
    decreases |vals|
  {
    if keys != [] && vals != [] {
      if k == keys[0] {
        AssignSame(m[k := vals[0]], map[k := vals[0]], keys[1..], vals[1..], k);
      } else {
        AssignFresh(m[keys[0] := vals[0]], keys[1..], vals[1..], k);
        AssignFresh(map[keys[0] := vals[0]], keys[1..], vals[1..], k);
      }
    }
  }

  /** Two maps that agree on a key keep agreeing on it through the same writes. */
  lemma {:induction false} AssignSame(a: map<string, string>, b: map<string, string>, keys: seq<string>, vals: seq<string>, k: string)
    requires k in a && k in b && a[k] == b[k]
    ensures k in Assign(a, keys, vals) && k in Assign(b, keys, vals)
    ensures Assign(a, keys, vals)[k] == Assign(b, keys, vals)[k]
    decreases |vals|
  {
    if keys != [] && vals != [] {
      AssignSame(a[keys[0] := vals[0]], b[keys[0] := vals[0]], keys[1..], vals[1..], k);
    }
  }

  /** The keys one header name writes on its own. */
  function Own(fields: seq<Field>, n: string): map<string, string> {
    Assign(map[], Variants(n), Values(fields, n))
  }

  /** What the loop leaves under a key depends only on the key's own name: keys
      written for different names never meet, since each key is its name up to
      case. */
  lemma {:induction false} Locality(m: map<string, string>, names: seq<string>, fields: seq<Field>, k: string)
    requires Fresh(m, names)
    ensures Lower(k) !in names ==> (k in EncodeNames(m, names, fields) <==> k in m)
    ensures Lower(k) !in names && k in m ==> EncodeNames(m, names, fields)[k] == m[k]
    ensures Lower(k) in names ==> (k in EncodeNames(m, names, fields) <==> k in Own(fields, Lower(k)))
    ensures Lower(k) in names && k in Own(fields, Lower(k)) ==> EncodeNames(m, names, fields)[k] == Own(fields, Lower(k))[k]
    decreases |names|
  {
    if names != [] {
      var n := names[0];
      var vs := Variants(n);
      var vals := Values(fields, n);
      var m' := Assign(m, vs, vals);
      var rest := names[1..];
      FreshStep(m, names, fields);
      Locality(m', rest, fields, k);
      assert EncodeNames(m, names, fields) == EncodeNames(m', rest, fields);
      if Lower(k) == n {
        assert k !in m;
        assert n !in rest;
        AssignFresh(m, vs, vals, k);
      } else {
        assert k !in vs[..Min(|vs|, |vals|)];
      }
    }
  }

  /** The header map of a translated response: hop-by-hop headers are gone, and
      each key names a kept header up to case and holds one of its values. */
  lemma HeaderKeysAreSound(fields: seq<Field>)
    ensures var r := EncodeHeaders(fields);
      forall k :: k in r ==> !HopByHop(k) && r[k] in Values(Kept(fields), Lower(k))
  {
    var kept := Kept(fields);
    var names := Names(kept);
    var r := EncodeHeaders(fields);
    assert Fresh(map[], names);
    forall k | k in r ensures !HopByHop(k) && r[k] in Values(kept, Lower(k)) {
      Locality(map[], names, kept, k);
      var i :| 0 <= i < |kept| && Lower(kept[i].name) == Lower(k);
      assert kept[i] in kept;
    }
  }

  /** As far as a header has values, its first case variants are all keys.  A
      key need not hold the value at its own position: variants repeat when the
      name has a character without case, and a later value then overwrites an
      earlier one (see `RepeatedVariantLosesValue`). */
  lemma HeaderValuesAllLand(fields: seq<Field>)
    ensures var r := EncodeHeaders(fields);
      forall n, j :: n in Names(Kept(fields)) && 0 <= j < Limit(Kept(fields), n) ==> Variants(n)[j] in r
  {
    var kept := Kept(fields);
    var names := Names(kept);
    assert Fresh(map[], names);
    forall n, j | n in names && 0 <= j < Limit(kept, n) ensures Variants(n)[j] in EncodeHeaders(fields) {
      var vs := Variants(n);
      Locality(map[], names, kept, vs[j]);
      assert vs[j] in vs[..Limit(kept, n)];
    }
  }

  /** When a header's first variants are distinct, the j-th value sits under the
      j-th variant. */
  lemma HeaderValuesInOrder(fields: seq<Field>, n: string)
    requires n in Names(Kept(fields)) && Distinct(Variants(n)[..Limit(Kept(fields), n)])
    ensures forall j :: 0 <= j < Limit(Kept(fields), n) ==>
      Variants(n)[j] in EncodeHeaders(fields) && EncodeHeaders(fields)[Variants(n)[j]] == Values(Kept(fields), n)[j]
  {
    var kept := Kept(fields);
    var names := Names(kept);
    assert Fresh(map[], names);
    forall j | 0 <= j < Limit(kept, n)
      ensures Variants(n)[j] in EncodeHeaders(fields) && EncodeHeaders(fields)[Variants(n)[j]] == Values(kept, n)[j]
    {
      var vs := Variants(n);
      Locality(map[], names, kept, vs[j]);
      assert vs[j] in vs[..Limit(kept, n)];
    }
  }


  /** A name with a character that has no case repeats its variants, so of three
      values the first is lost: `a-b` has the variants `a-b`, `a-B`, `a-b`, ... */
  lemma RepeatedVariantLosesValue()
    ensures var fields := [Field("a-b", "x"), Field("a-b", "y"), Field("a-b", "z")];
      && Limit(Kept(fields), "a-b") == 3
      && EncodeHeaders(fields) == map["a-b" := "z", "a-B" := "y"]
  {
    var fields := [Field("a-b", "x"), Field("a-b", "y"), Field("a-b", "z")];
    DashedNameLines(fields);
    DashedNameVariants();
    SingleNameEncodes(fields, "a-b");
    AssignThree(Variants("a-b"), Values(Kept(fields), "a-b"));
  }

  /** Header lines that all share one name are written by a single zip. */
  lemma SingleNameEncodes(fields: seq<Field>, n: string)
    requires Names(Kept(fields)) == [n]
    ensures EncodeHeaders(fields) == Assign(map[], Variants(n), Values(Kept(fields), n))
  {
    var kept := Kept(fields);
    assert EncodeNames(map[], [n], kept) == EncodeNames(Assign(map[], Variants(n), Values(kept, n)), [], kept);
  }

  /** Three `a-b` lines are all kept, share the one name, and give three values. */
  lemma DashedNameLines(fields: seq<Field>)
    requires fields == [Field("a-b", "x"), Field("a-b", "y"), Field("a-b", "z")]
    ensures Kept(fields) == fields
    ensures Names(fields) == ["a-b"]
    ensures Values(fields, "a-b") == ["x", "y", "z"]
  {
    DashedNameIsKept();
    DashedNameKept(fields);
    DashedNameNames(fields);
    DashedNameValues(fields);
  }

  lemma DashedNameIsKept()
    ensures Lower("a-b") == "a-b" && !HopByHop("a-b")
  {
    assert Lower("a-b") == "a-b";
  }

  lemma DashedNameKept(fields: seq<Field>)
    requires fields == [Field("a-b", "x"), Field("a-b", "y"), Field("a-b", "z")]
    requires !HopByHop("a-b")
    ensures Kept(fields) == fields
  {
    assert Kept(fields[2..]) == fields[2..];
    assert Kept(fields[1..]) == fields[1..];
  }

  lemma DashedNameNames(fields: seq<Field>)
    requires fields == [Field("a-b", "x"), Field("a-b", "y"), Field("a-b", "z")]
    requires Lower("a-b") == "a-b"
    ensures Names(fields) == ["a-b"]
  {
    assert Names(fields[2..]) == ["a-b"];
    assert Names(fields[1..]) == ["a-b"];
  }

  lemma DashedNameValues(fields: seq<Field>)
    requires fields == [Field("a-b", "x"), Field("a-b", "y"), Field("a-b", "z")]
    requires Lower("a-b") == "a-b"
    ensures Values(fields, "a-b") == ["x", "y", "z"]
  {
    assert fields[2..][1..] == [];
    assert Values(fields[2..], "a-b") == ["z"];
    assert Values(fields[1..], "a-b") == ["y"] + ["z"];
  }

  /** The first three variants of `a-b`: the dash has no case, so the third
      repeats the first. */
  lemma DashedNameVariants()
    ensures |Variants("a-b")| == 8
    ensures Variants("a-b")[..3] == ["a-b", "a-B", "a-b"]
  {
    var vd := Variants("-b");
    DashVariants();
    assert "a-b"[1..] == "-b" && LowerChar('a') == 'a';
    var va := Variants("a-b");
    assert va[..4] == Prefixed('a', vd);
    assert va[0] == "a-b" && va[1] == "a-B" && va[2] == "a-b";
  }

  lemma DashVariants()
    ensures |Variants("-b")| == 4
    ensures Variants("-b")[0] == "-b" && Variants("-b")[1] == "-B" && Variants("-b")[2] == "-b"
  {
    var vb := Variants("b");
    LetterVariants();
    assert "-b"[1..] == "b" && LowerChar('-') == '-' && UpperChar('-') == '-';
    var vd := Variants("-b");
    assert vd == Prefixed('-', vb) + Prefixed('-', vb);
  }

  lemma LetterVariants()
    ensures Variants("b") == ["b", "B"]
  {
    assert "b"[1..] == "" && LowerChar('b') == 'b' && UpperChar('b') == 'B';
    var vb := Variants("b");
    assert vb == Prefixed('b', [""]) + Prefixed('B', [""]);
    assert vb[0] == "b" && vb[1] == "B";
  }

  /** The zip over keys that repeat the first writes the third value over the first. */
  lemma AssignThree(vs: seq<string>, vals: seq<string>)
    requires |vs| >= 3 && vs[..3] == ["a-b", "a-B", "a-b"] && vals == ["x", "y", "z"]
    ensures Assign(map[], vs, vals) == map["a-b" := "z", "a-B" := "y"]
  {
    assert vs[0] == "a-b" && vs[1] == "a-B" && vs[2] == "a-b";
    assert Assign(map[], vs, vals) == Assign(map["a-b" := "x"], vs[1..], vals[1..]);
    assert Assign(map["a-b" := "x"], vs[1..], vals[1..]) == Assign(map["a-b" := "x", "a-B" := "y"], vs[2..], vals[2..]);
    assert Assign(map["a-b" := "x", "a-B" := "y"], vs[2..], vals[2..]) == Assign(map["a-b" := "x", "a-B" := "y", "a-b" := "z"], vs[3..], []);
    assert map["a-b" := "x", "a-B" := "y", "a-b" := "z"] == map["a-b" := "z", "a-B" := "y"];
  }
  /** Two values of a lower-case name that ends in a letter both survive: the
      first under the name, the second under the name with its last letter
      upper-cased. */
  lemma TwoValuesSurvive(fields: seq<Field>, n: string, a: string, b: string)
    requires |n| >= 1 && Lower(n) == n && IsLetter(n[|n| - 1]) && !HopByHop(n)
    requires Values(fields, n) == [a, b]
    ensures n in EncodeHeaders(fields) && EncodeHeaders(fields)[n] == a
    ensures var n' := n[..|n| - 1] + [UpperChar(n[|n| - 1])];
      n' in EncodeHeaders(fields) && EncodeHeaders(fields)[n'] == b
  {
    KeptValues(fields, n);
    var kept := Kept(fields);
    assert n in Names(kept) by {
      assert a in Values(kept, n);
      ValuesComeFromFields(kept, n, a);
    }
    EndingInLetterSeparatesTwo(n);
    FirstVariantIsLower(n);
    SecondVariant(n);
    var vs := Variants(n);
    assert Lower(n[..|n| - 1]) == n[..|n| - 1];
    assert Limit(kept, n) == 2;
    FirstTwoDistinct(vs);
    HeaderValuesInOrder(fields, n);
  }

  lemma FirstTwoDistinct(vs: seq<string>)
    requires |vs| >= 2 && vs[0] != vs[1]
    ensures Distinct(vs[..2])
  {
  }

  lemma LowerOfLowerCase(s: string)
    requires forall i :: 0 <= i < |s| ==> !('A' <= s[i] <= 'Z')
    ensures Lower(s) == s
  {
  }

  /** Two `Set-Cookie` lines, in any spelling of the name, both survive. */
  lemma TwoCookiesSurvive(fields: seq<Field>, a: string, b: string)
    requires Values(fields, "set-cookie") == [a, b]
    ensures "set-cookie" in EncodeHeaders(fields) && EncodeHeaders(fields)["set-cookie"] == a
    ensures "set-cookiE" in EncodeHeaders(fields) && EncodeHeaders(fields)["set-cookiE"] == b
  {
    var n := "set-cookie";
    LowerOfLowerCase(n);
    assert |n| != |"content-length"| && |n| != |"transfer-encoding"|;
    assert n[..9] + [UpperChar(n[9])] == "set-cookiE";
    TwoValuesSurvive(fields, n, a, b);
  }

  lemma {:induction false} ValuesComeFromFields(fields: seq<Field>, n: string, v: string)
    requires v in Values(fields, n)
    ensures exists i :: 0 <= i < |fields| && Lower(fields[i].name) == n
  {
    if Lower(fields[0].name) != n {
      ValuesComeFromFields(fields[1..], n, v);
      var i :| 0 <= i < |fields[1..]| && Lower(fields[1..][i].name) == n;
      assert fields[i + 1] == fields[1..][i];
    }
  }

  // ---- the response ------------------------------------------------------------

  /** `if encoding:` — an empty encoding name counts as none. */
  predicate HasEncoding(enc: Option<string>) {
    enc.Some? && enc.value != ""
  }

  /** A response for which the encoding lookup finds an encoding passes through as
      decoded text; any other is base64 of the raw bytes, flagged as such.  The
      status passes through. */
  function Translate(up: Upstream, lib: Library): (r: Result<Response>)
    ensures var enc := lib.encodingOf(Kept(up.fields));
      && (r.Err? <==> HasEncoding(enc) && lib.decode(up.data, enc.value).None?)
      && (r.Err? ==> r.failure == BadText(enc.value))
      && (r.Ok? ==> r.value.statusCode == up.status && r.value.headers == EncodeHeaders(up.fields))
      && (r.Ok? ==> (r.value.isBase64Encoded <==> !HasEncoding(enc)))
      && (r.Ok? && HasEncoding(enc) ==> lib.decode(up.data, enc.value) == Some(r.value.body))
      && (r.Ok? && !HasEncoding(enc) ==> r.value.body == lib.b64encode(up.data))
  {
    var headers := EncodeHeaders(up.fields);
    var enc := lib.encodingOf(Kept(up.fields));
    if HasEncoding(enc) then
      match lib.decode(up.data, enc.value)
      case None => Err(BadText(enc.value))
      case Some(text) => Ok(Response(text, headers, up.status, false))
    else
      Ok(Response(lib.b64encode(up.data), headers, up.status, true))
  }

  /** A binary response survives the gateway: when base64 decoding undoes the
      encoding, the gateway gets back exactly the bytes the server sent. */
  lemma BinaryBodyRoundTrips(up: Upstream, lib: Library)
    requires !HasEncoding(lib.encodingOf(Kept(up.fields)))
    requires lib.b64decode(lib.b64encode(up.data)) == Some(up.data)
    ensures Translate(up, lib).Ok? && Translate(up, lib).value.isBase64Encoded
    ensures lib.b64decode(Translate(up, lib).value.body) == Some(up.data)
  {
  }

  /** Framing lines do not matter: two replies with the same status and bytes
      whose header lines agree once Content-Length and Transfer-Encoding are
      dropped translate to the same response. */
  lemma FramingIsInvisible(up: Upstream, up': Upstream, lib: Library)
    requires up.status == up'.status && up.data == up'.data
    requires Kept(up.fields) == Kept(up'.fields)
    ensures Translate(up, lib) == Translate(up', lib)
  {
  }

  /** `proxy_request`: build the request, let the local server answer it (None
      when it never accepts the connection), translate the answer. */
  function Proxy(path: string, ev: Event, lib: Library, server: Request -> Option<Upstream>): (r: Result<Response>)
    ensures BuildRequest(path, ev, lib).Err? ==> r == Err(BadBase64)
    ensures BuildRequest(path, ev, lib).Ok? && server(BuildRequest(path, ev, lib).value).None? ==> r == Err(Unreachable)
    ensures BuildRequest(path, ev, lib).Ok? && server(BuildRequest(path, ev, lib).value).Some? ==>
      r == Translate(server(BuildRequest(path, ev, lib).value).value, lib)
  {
    var req :- BuildRequest(path, ev, lib);
    match server(req)
    case None => Err(Unreachable)
    case Some(up) => Translate(up, lib)
  }
}
